=== FILE: README.md ===
# Point-of-sale inventory core, modelled in Dafny

This project models the inventory logic of a small browser point-of-sale tool
with two screens:

- the sales screen (`pos.js`) builds a cart against the catalog's stock and
  finalizes a sale;
- the admin screen (`admin.js`) adds, edits, deletes and searches products;
- `storage.js` keeps the whole catalog as one serialised array under one
  key of the browser's key-value store.

The DOM handlers are written out as pure functions over immutable values.
The store is a single cell (`Storage.Blob`). Each write replaces the whole
array.

Stored records are JavaScript objects whose keys depend on which screen wrote
them. `Records.RawRecord` therefore has all eleven keys either screen uses,
each one optional:

- the admin screen writes `name/desc/price/stock/image`;
- the sales screen reads `productName/productDetail/productPrice/stock|stockQuantity/productImage`,
  falls back to the admin keys `desc`, `price`, `stock` and `image`, and
  writes `stockQuantity` back. Of an admin-created record it therefore
  loads the description, price, stock and image, but not the name; the
  product grid then throws on that record (see below).

The sales screen's alias table (`PosCatalog.LoadProduct`) and the storage
repair pass (`Storage.EnsureIds`) are explicit functions over these records.
This keeps the mismatch between the two shapes visible:

- a product created by the admin screen has no `productName`. The sales
  screen lower-cases every product's `productName` before filtering, even
  for an empty query. One such product makes that filter throw, so the
  product grid shows nothing (`PosCatalog.AdminRecordBlanksGrid`);
- a sale rewrites every record in the sales screen's keys. Admin-created
  products lose their `name`. If the admin screen's `getArrayedProducts()`
  returns the stored array, its search then throws
  (`Admin.SearchFailsAfterSale`);
- an admin edit of the stock to 0 is shadowed by a stale `stockQuantity`
  (`Admin.ZeroStockEditShadowed`).

JavaScript semantics that matter here are written out in module `Js`:

- truthiness, `a || b || default` and `===` (NaN equals nothing);
- `>` and `<=` are false whenever NaN is involved;
- `+`, `-` and `*` propagate NaN.

Module `Coerce` writes out the number and string conversions:

- `Number(text)`: blank text is 0;
- `parseInt(text, 10)`: skips leading white space and reads the longest
  digit prefix; blank text is NaN;
- `String(n)` and `n.toString(36)`.

Amounts are integers, for example cents.

Modules, one per concern:

- `Wrappers`, `Seqs`, `Js`, `Text`, `Coerce`: helpers.
- `Records`: the stored record and its JSON round trip.
- `Ids`: id generation.
- `Storage`: `storage.js`.
- `PosCatalog`, `Cart`, `Checkout`: `pos.js`.
- `Admin`: `admin.js`.
- `Html`: `escapeHtml`.

The model follows the code where it departs from the intended design of the
tool:

- the stock alias is the first *truthy* one of `stock` and `stockQuantity`,
  not the first present one. A stock of 0 falls through to `stockQuantity`;
- stock and price are not clamped or defaulted when non-numeric. They can be
  NaN in memory, and NaN is written to the store as `null`;
- a NaN stock never rejects an add. With a NaN stock the cart can grow
  without bound;
- ids are not guaranteed unique. The sales screen falls back to
  `productName` as the id. A sale stays non-negative only when the catalog's
  ids are distinct (`Checkout.SaleKeepsStockNonNegative`,
  `Checkout.DuplicateIdsOversell`);
- the edit form is not validated. A blank stock becomes NaN;
- the add form accepts a blank price or stock as 0, and accepts negative
  stock;
- the admin screen reads the catalog through `getArrayedProducts()`, which
  `storage.js` does not define. Its outcome is an input to `Admin.AdminLoad`.

## Model

| member | source | states |
|---|---|---|
| `Storage.GetAllProducts` | storage.js:40-48 | The stored array is returned as parsed (NaN-free). A missing entry, unparsable text or a non-array document reads as the empty array. |
| `Storage.SaveAllProducts` | storage.js:64-67 | After a save the cell holds an array document, whatever it held before. |
| `Storage.SaveThenGet` | storage.js:64-67 | Reading after `saveAllProducts(a)` gives `a` up to the JSON round trip. It gives exactly `a` when `a` holds no NaN. The previous content plays no part. |
| `Storage.GetProductById` | storage.js:55-59 | An empty id gives null. Otherwise the result is the first record whose `id` is the text, else the first whose `productName` is, else null. It is null exactly when no record matches either way. |
| `Storage.RepairRecord` | storage.js:76-91 | A falsy id is replaced by "p", the clock's base-36 digits and random digits. A truthy id is kept. A missing `stock` becomes `Number(stockQuantity)` when that is defined, else 0. A defined `stock` is kept. No other field changes. Afterwards nothing needs repair. |
| `Storage.EnsureIds` | storage.js:73-93 | Every record is repaired in place and order. Afterwards every record has a truthy id and a defined stock. The store is left untouched exactly when no record needed a repair. |
| `Storage.EnsureIdsIdempotent` | storage.js:73-93 | A second run, with any clock or random input, changes nothing and does not write. |
| `Storage.InitializeDatabase` | storage.js:12-34 | An existing entry, even a malformed one, is never overwritten. A missing entry stays missing when the seed fetch fails. A non-array seed is stored as it is. An array seed is stored record by record: each record keeps every field but `id` and `stock`, keeps a truthy id and a defined stock, and gets a stamped id when its id is falsy. Each stored record is its seed record repaired as `ensureIds` repairs it. Afterwards no record needs repair. |
| `Ids.StampedId` | storage.js:79 | A repaired id is "p" followed by base-36 digits only. |
| `Ids.GenerateId` | admin.js:2-4 | The id starts with the prefix and adds at most seven base-36 digits. |
| `PosCatalog.LoadProduct` | pos.js:25-32 | The name is taken as stored. The price is `Number` of the first truthy one of `productPrice` and `price`, else 0. The detail is the first truthy one of `productDetail` and `desc`, else "". The image is the first truthy one of `productImage` and `image`, else "". |
| `PosCatalog.LoadedStock` | pos.js:30 | Loaded stock is `Number` of the first truthy one of `stock` and `stockQuantity`, else 0. A stock of 0 falls through. |
| `PosCatalog.LoadedId` | pos.js:26 | The loaded id is the stored id when truthy, else `productName`, which may be missing. |
| `PosCatalog.AdminRecordHasNoPosName` | pos.js:26-27 | A record written by the admin screen has no name on the sales screen. Without a truthy id it has no id either. |
| `PosCatalog.Canonical` | pos.js:181-188 | The record a sale writes holds none of the admin screen's keys, and carries the stock under `stockQuantity`. |
| `PosCatalog.ProductFilter` | pos.js:38-39 | The filter throws exactly when some product has no string `productName`, whatever the query. Otherwise it keeps every copy of each product whose lower-cased name contains the lower-cased trimmed query, and no other, in order. A blank query keeps all products. |
| `PosCatalog.AdminRecordBlanksGrid` | pos.js:39 | One stored record without `productName` makes the sales screen's filter throw for every query. |
| `PosCatalog.CanonicalRoundTrip` | pos.js:181-188 | A loaded product written back in canonical keys reloads to itself when price and stock are numbers. A NaN stock reloads as 0. |
| `Cart.AddToCart` | pos.js:65-87 | The add is refused exactly when the stock is a number and the held quantity plus 1 exceeds it. A refused add of a held product reports "only has" with the stock; a refused new product reports "out of stock". On success that id holds one more unit, never above a numeric stock. A new product is appended as one snapshot line. An existing line keeps its position and snapshot and gains exactly one unit. Every other line stays where it was, unchanged. The cart invariant is kept. |
| `Cart.Plus` | pos.js:119-132 | `+` does nothing for an id with no line or no product. Otherwise it keeps the cart invariant. |
| `Cart.PlusIsAdd` | pos.js:120-129 | `+` on an existing line applies the same bound and step as `addToCart` on the product found by that id. |
| `Cart.Minus` | pos.js:134-146 | `-` does nothing for an unknown id. A line above quantity 1 keeps its position and snapshot and loses one unit. A line at quantity 1 is spliced out, with the lines before and after it unchanged. Other lines and their order are unchanged. Every line keeps quantity at least 1, and ids stay unique. |
| `Cart.MinusUndoesAdd` | pos.js:134-145 | `-` after a successful add of the same id gives back the original cart. |
| `Cart.ClearCart` | pos.js:151-154 | Clearing gives an empty, valid cart with total 0. |
| `Cart.Total` | pos.js:97-102 | The grand total is a number exactly when every line's price is. An empty cart totals 0. |
| `Cart.TotalAppend` | pos.js:97-102 | The total of two carts concatenated is the sum of their totals. |
| `Cart.RenderTotal` | pos.js:97-102 | The accumulation loop over `price * quantity` computes the grand total. |
| `Cart.FourthAddRefused` | pos.js:65-85 | With stock 3 and price 10, three adds succeed and the fourth is refused naming stock 3. The cart ends with quantity 3 and total 30. |
| `Checkout.Validate` | pos.js:163-173 | No rejection exactly when every line's product is found and its quantity is within fresh stock. Otherwise the result is the rejection of the first failing line, in cart order. |
| `Checkout.Deduct` | pos.js:175-179 | Each product with a cart line loses that line's quantity. Products without a line are unchanged. Length, order and all other fields are kept. |
| `Checkout.CanonicalAll` | pos.js:181-188 | The catalog is written back with none of the admin screen's keys. |
| `Checkout.Finalize` | pos.js:156-193 | An empty cart is refused. Otherwise the sale is refused exactly when some line has no product or exceeds fresh stock, and a refused sale writes nothing. An accepted sale empties the cart. It writes one whole catalog of the same length: the deducted products in canonical keys. |
| `Checkout.SaleKeepsStockNonNegative` | pos.js:163-179 | With distinct ids and non-negative numeric stocks, every stock after a sale is a non-negative number. |
| `Checkout.DuplicateIdsOversell` | pos.js:164-177 | Two records share id "x", with stock 5 and stock 0. Selling 2 passes the check and writes -2 for the second record. |
| `Checkout.StaleCartRejected` | pos.js:162-172 | A line whose quantity exceeds the fresh stock makes the sale fail with a stock or not-found rejection. |
| `Admin.AdminLoad` | admin.js:33-42 | The editor's copy is the array returned. It is empty when the read throws or returns a non-array. |
| `Admin.AddProduct` | admin.js:84-107 | The add is refused exactly when the name is blank or the price or stock text is not a number. On success exactly one record is appended after the unchanged old ones. It has an id starting with "p" and the trimmed name and description. Its price is `Number(text)`. Its stock is `parseInt(String(Number(text)))`, which equals `Number(text)` for the integers modelled. It sets none of the sales screen's keys. |
| `Admin.DeleteProduct` | admin.js:134-144 | When confirmed, every record with the id is removed. Every copy of every other record is kept, in order. An absent id or no confirmation changes nothing. |
| `Admin.EditSave` | admin.js:195-206 | Without a current id or a matching record, nothing changes. Otherwise only the first matching record changes. Its name and description become the trimmed texts, its price `Number(text)`, its stock `parseInt(text, 10)`, and its image the new image when one is given. Every record keeps its id and every key the sales screen reads. |
| `Admin.Search` | admin.js:51-62 | A blank query keeps every record. Otherwise the search throws exactly when some record has no string name. If it does not throw, the result keeps every copy of each record whose lower-cased name contains the lower-cased trimmed query, and no other, in order. |
| `Admin.SearchFailsAfterSale` | admin.js:62 | After any accepted sale of a non-empty catalog, a non-blank admin search throws, assuming the editor's `getArrayedProducts()` returns the stored array. |
| `Admin.ZeroStockEditShadowed` | admin.js:205 | An edit of `stock` to 0 on a record with a truthy `stockQuantity` is not seen by the sales screen: it loads the stale `stockQuantity`. |
| `Html.EscapeHtml` | admin.js:215-222 | The five passes leave no `<`, `>`, `"` or `'`. Text with nothing to escape is returned unchanged. The copy in pos.js:210-217 is the same function on strings. |
| `Html.EscapeIsOnePass` | admin.js:215-222 | The five `replaceAll` passes equal escaping every character once. Because `&` goes first, no entity is escaped twice. |
| `Html.UnescapeEscape` | admin.js:215-222 | Decoding the five entities after escaping gives back the original text. |
| `Coerce.ParseInt` | admin.js:205 | `parseInt(text, 10)` is a number only when the text holds a decimal digit. |
| `Coerce.ParseIntOfString` | admin.js:102 | `parseInt(String(n), 10)` is `n` for every integer the model admits (see Left out). |
| `Coerce.StringToNumberOfString` | admin.js:89-90 | `Number(String(n))` is `n` for every integer the model admits, so the number `Number(text)` yields is the one the text spells. |
| `Coerce.StringToNumber` | admin.js:89-90 | `Number(text)` is 0 for blank text. Otherwise it is a number exactly when the trimmed text is a signed decimal integer. Which number is stated by `Coerce.StringToNumberOfString`. |
| `Coerce.BlankInputDiffers` | admin.js:205 | A blank field is 0 for `Number` (add form) but NaN for `parseInt` (edit form). |
| `Text.TrimEmptyIffBlank` | admin.js:87 | A trimmed name is empty exactly when it was all white space. |
| `Text.IncludesMeaning` | admin.js:62 | `includes` holds exactly when the query occurs at some position. |

## Left out

- DOM rendering, event wiring, modals and `alert` are not modelled. Of the
  product grid (pos.js:35-63) only its filter is modelled
  (`PosCatalog.ProductFilter`). `confirm` is
  the boolean input of `Admin.DeleteProduct`.
- The edit modal's pre-filling (admin.js:155-179) is not modelled. The edit
  form's text and image are inputs.
- Image loading through `FileReader` is not modelled. An image is an opaque
  string, and "" means none.
- `fetch('products.json')` is an optional input. A failed fetch or parse is
  `None`.
- `localStorage` is a value passed in and returned. `JSON.stringify`/`parse`
  are modelled only by their effect on values: NaN becomes `null`, and
  missing keys stay missing. Quota and storage errors are not modelled.
- `getArrayedProducts` is not part of this model; `Admin.AdminLoad` takes
  its outcome as an input.
- The clock and `Math.random` are inputs to `Ids.StampedId` and
  `Ids.GenerateId`. Ids are not claimed to be unique, because the code does
  not make them so.
- `setTimeout(ensureIds, 300)` and its race with the asynchronous seed are
  not modelled. Lost updates between tabs are not modelled either.
- Floating-point prices and `toFixed` formatting are not modelled. Amounts
  are integers.
- Keys outside the eleven of `Records.RawRecord` are not modelled. In the
  code `ensureIds` and the admin edit keep such keys, while a sale drops
  them.
- Records whose fields hold booleans, objects or arrays are not modelled.
  Arrays holding non-objects are not modelled either.
- Coerce.StringToNumber: decimal fractions, a trailing point (`"5."`),
  exponents, hexadecimal, binary (`"0b11"`) and octal (`"0o7"`) literals and
  `Infinity` read as NaN, although JavaScript accepts them.
- Coerce.ParseInt: only decimal integer text is modelled.
- Coerce.ParseIntOfString: integers are unbounded here. JavaScript numbers
  are doubles: integers above 2^53 are not exact, and `String(n)` switches
  to exponent form from 10^21 on (`parseInt("1e+21", 10)` is 1). The
  round trip is claimed only below those bounds.
- Coerce.StringToNumberOfString: the same bounds apply, for the same reason.
- Html.EscapeHtml: takes a string. The `text = ''` default and the
  `toString()` call of pos.js:210-211, which accept other values, are not
  modelled.
- Text.ToLower: only ASCII letters are lower-cased; the Unicode case mapping
  of `toLowerCase` is not modelled.
- Cart.AddToCart: the "one more unit" and "other lines unchanged" clauses
  exclude a NaN id. Such a line can never be found again, since NaN equals
  nothing.
- Checkout.SaleKeepsStockNonNegative: holds only for catalogs with distinct
  ids, because the code checks each line against the first product with its
  id but deducts from every product with that id.

=== FILE: admin.dfy ===
/** admin.js: the catalog editor. Each handler works on the editor's local
    copy of the array and then saves the whole array. Form fields arrive as
    text; the chosen image is an opaque string ("" when none). */
module Admin {
  import opened Wrappers
  import opened Js
  import opened Text
  import opened Coerce
  import opened Records
  import opened Ids
  import opened Seqs
  import opened Storage
  import opened PosCatalog
  import opened Cart
  import opened Checkout

  /** The editor's `loadProducts`. It reads the catalog through
      `getArrayedProducts()`, given here as its outcome: `None` when the call
      throws, else the value it returns. Anything but an array becomes []. */
  function AdminLoad(fetched: Option<Json>): (r: seq<RawRecord>)
    ensures fetched.None? ==> r == []
    ensures fetched.Some? && fetched.value.JsonOther? ==> r == []
    ensures fetched.Some? && fetched.value.JsonArray? ==> r == fetched.value.items
  {
    match fetched
    case Some(JsonArray(items)) => items
    case _ => []
  }

  datatype AddForm = AddForm(name: string, desc: string, price: string, stock: string)

  datatype AdminError = InvalidInput

  /** The record the add form creates, in the admin screen's own keys. */
  function NewRecord(id: string, name: string, desc: string, price: Number, stock: int, image: string): RawRecord {
    EmptyRecord.(
      id := Some(JStr(id)),
      name := Some(JStr(name)),
      desc := Some(JStr(desc)),
      price := Some(JNum(price)),
      stock := Some(JNum(ParseInt(IntToString(stock)))),
      image := Some(JStr(image)))
  }

  /** The add handler: refused when the name is blank or the price or stock
      text is not a number; otherwise one new record is appended. */
  function AddProduct(products: seq<RawRecord>, form: AddForm, fraction: seq<Digit36>, image: string)
    : (r: Result<seq<RawRecord>, AdminError>)
    ensures r.Failure? <==>
      AllSpace(form.name) || StringToNumber(form.price).NaN? || StringToNumber(form.stock).NaN?
    ensures r.Success? ==> |r.value| == |products| + 1 && r.value[..|products|] == products
    ensures r.Success? ==>
      var p := r.value[|products|];
      && p.id.Some? && p.id.value.JStr? && |p.id.value.s| >= 1 && p.id.value.s[0] == 'p'
      && p.name == Some(JStr(Trim(form.name))) && p.desc == Some(JStr(Trim(form.desc)))
      && p.price == Some(JNum(StringToNumber(form.price)))
      && p.stock == Some(JNum(StringToNumber(form.stock)))
      && p.image == Some(JStr(image))
      && p.productName.None? && p.productDetail.None? && p.productPrice.None?
      && p.stockQuantity.None? && p.productImage.None?
  {
    TrimEmptyIffBlank(form.name);
    var name := Trim(form.name);
    var price := StringToNumber(form.price);
    var stock := StringToNumber(form.stock);
    if name == "" || price.NaN? || stock.NaN? then Failure(InvalidInput)
    else
      var id := GenerateId("p", fraction);
      assert id[..1] == "p";
      ParseIntOfString(stock.v);
      var p := NewRecord(id, name, Trim(form.desc), price, stock.v, image);
      assert (products + [p])[..|products|] == products;
      Success(products + [p])
  }

  /** The delete handler: when confirmed, every record with the button's id
      goes and the rest keep their order; unconfirmed, nothing changes. */
  function DeleteProduct(products: seq<RawRecord>, id: string, confirmed: bool): (r: seq<RawRecord>)
    ensures !confirmed ==> r == products
    ensures confirmed ==> forall i :: 0 <= i < |r| ==> !HasId(r[i], id)
    ensures forall i :: 0 <= i < |products| && !HasId(products[i], id) ==> products[i] in r
    ensures SubsequenceOf(r, products)
    ensures FindRecord(products, id).None? ==> r == products
    ensures confirmed ==>
      forall x :: multiset(r)[x] == if HasId(x, id) then 0 else multiset(products)[x]
  {
    if !confirmed then
      FilterKeepsAll(products, (p: RawRecord) => true);
      FilterIsSubsequence(products, (p: RawRecord) => true);
      products
    else
      var keep := (p: RawRecord) => !HasId(p, id);
      FilterIsSubsequence(products, keep);
      FilterCount(products, keep);
      FilterKeepsAll(products, keep);
      Filter(products, keep)
  }

  datatype EditForm = EditForm(name: string, desc: string, price: string, stock: string)

  /** `q` carries `p`'s id and every key the sales screen reads. */
  predicate KeepsSalesKeys(p: RawRecord, q: RawRecord) {
    && q.id == p.id && q.productName == p.productName
    && q.stockQuantity == p.stockQuantity && q.productPrice == p.productPrice
    && q.productDetail == p.productDetail && q.productImage == p.productImage
  }

  /** The fields the edit form writes into a record. The image is replaced
      only by a non-empty new image. */
  function Edited(p: RawRecord, form: EditForm, image: string): (q: RawRecord)
    ensures KeepsSalesKeys(p, q)
  {
    p.(name := Some(JStr(Trim(form.name))),
       desc := Some(JStr(Trim(form.desc))),
       price := Some(JNum(StringToNumber(form.price))),
       stock := Some(JNum(ParseInt(form.stock))),
       image := if image != "" then Some(JStr(image)) else p.image)
  }

  /** The edit-save handler: nothing happens without a current id or a
      record carrying it; otherwise only the first such record changes, and
      only in name, desc, price, stock and image. No input is validated. */
  function EditSave(products: seq<RawRecord>, current: Option<string>, form: EditForm, image: string)
    : (r: seq<RawRecord>)
    ensures current.None? || current.value == "" ==> r == products
    ensures current.Some? && FindRecord(products, current.value).None? ==> r == products
    ensures |r| == |products|
    ensures forall i :: 0 <= i < |products| && r[i] != products[i] ==>
      current.Some? && FindRecord(products, current.value) == Some(i)
    ensures forall i :: 0 <= i < |products| ==> KeepsSalesKeys(products[i], r[i])
    ensures current.Some? && current.value != "" && FindRecord(products, current.value).Some? ==>
      var k := FindRecord(products, current.value).value;
      && r[k].name == Some(JStr(Trim(form.name)))
      && r[k].desc == Some(JStr(Trim(form.desc)))
      && r[k].price == Some(JNum(StringToNumber(form.price)))
      && r[k].stock == Some(JNum(ParseInt(form.stock)))
      && r[k].image == (if image != "" then Some(JStr(image)) else products[k].image)
  {
    if current.None? || current.value == "" then products
    else
      match FindRecord(products, current.value)
      case None => products
      case Some(k) => EditAt(products, k, form, image)
  }

  /** The catalog with the record at `k` edited and every other one kept. */
  function EditAt(products: seq<RawRecord>, k: nat, form: EditForm, image: string): (r: seq<RawRecord>)
    requires k < |products|
    ensures |r| == |products| && r[k] == Edited(products[k], form, image)
    ensures forall i :: 0 <= i < |products| && i != k ==> r[i] == products[i]
    ensures forall i :: 0 <= i < |products| ==> KeepsSalesKeys(products[i], r[i])
  {
    var e := Edited(products[k], form, image);
    ReplaceKeepingSalesKeys(products, k, e);
    products[k := e]
  }

  lemma ReplaceKeepingSalesKeys(products: seq<RawRecord>, k: nat, e: RawRecord)
    requires k < |products| && KeepsSalesKeys(products[k], e)
    ensures forall i :: 0 <= i < |products| ==> KeepsSalesKeys(products[i], products[k := e][i])
  {
    forall i | 0 <= i < |products|
      ensures KeepsSalesKeys(products[i], products[k := e][i])
    {
      if i != k {
        assert products[k := e][i] == products[i];
      }
    }
  }

  /** The search filter of `renderAdminProducts`: a blank query keeps every
      record; otherwise each record's `name` is lower-cased, which throws
      (`None`) when some record has no string name, and the records whose
      name contains the lower-cased query are kept in order. */
  function Search(products: seq<RawRecord>, filter: string): (r: Option<seq<RawRecord>>)
    ensures AllSpace(filter) ==> r == Some(products)
    ensures !AllSpace(filter) ==>
      (r.None? <==> exists i :: 0 <= i < |products| && !HasStringName(products[i]))
    ensures r.Some? ==> SubsequenceOf(r.value, products)
    ensures r.Some? && !AllSpace(filter) ==>
      forall i :: 0 <= i < |r.value| ==> NameMatches(r.value[i], ToLower(Trim(filter)))
    ensures r.Some? ==>
      forall i :: 0 <= i < |products| && NameMatches(products[i], ToLower(Trim(filter))) ==>
        products[i] in r.value
    ensures r.Some? && !AllSpace(filter) ==>
      forall x :: multiset(r.value)[x] ==
        if NameMatches(x, ToLower(Trim(filter))) then multiset(products)[x] else 0
  {
    TrimEmptyIffBlank(filter);
    var q := ToLower(Trim(filter));
    if q == "" then
      FilterKeepsAll(products, (p: RawRecord) => true);
      FilterIsSubsequence(products, (p: RawRecord) => true);
      Some(products)
    else if exists i :: 0 <= i < |products| && !HasStringName(products[i]) then None
    else Some(Matching(products, q))
  }

  /** The records whose name contains `q`, every copy of each, in order. */
  function Matching(products: seq<RawRecord>, q: string): (r: seq<RawRecord>)
    ensures SubsequenceOf(r, products)
    ensures forall i :: 0 <= i < |r| ==> NameMatches(r[i], q)
    ensures forall i :: 0 <= i < |products| && NameMatches(products[i], q) ==> products[i] in r
    ensures forall x :: multiset(r)[x] == if NameMatches(x, q) then multiset(products)[x] else 0
  {
    var keep := (p: RawRecord) => NameMatches(p, q);
    FilterIsSubsequence(products, keep);
    FilterCount(products, keep);
    Filter(products, keep)
  }

  predicate HasStringName(p: RawRecord) {
    p.name.Some? && p.name.value.JStr?
  }

  /** `p.name.toLowerCase().includes(q)`. */
  predicate NameMatches(p: RawRecord, q: string) {
    HasStringName(p) && Includes(ToLower(p.name.value.s), q)
  }

  /** A sale rewrites every record in the sales screen's keys, so afterwards
      no record has a `name`. Should the editor's `getArrayedProducts()`
      return the stored array, its list holds those records and any
      non-blank admin search throws. */
  lemma SearchFailsAfterSale(cart: Cart, store: Blob, filter: string)
    requires Finalize(cart, store).Success?
    requires |GetAllProducts(store)| > 0 && !AllSpace(filter)
    ensures var saved := GetAllProducts(Finalize(cart, store).value.store);
      Search(AdminLoad(Some(JsonArray(saved))), filter).None?
  {
    var saved := GetAllProducts(Finalize(cart, store).value.store);
    assert AdminLoad(Some(JsonArray(saved))) == saved;
    assert !HasStringName(saved[0]);
  }

  /** Editing the stock to 0 does not reach the sales screen once a sale has
      written `stockQuantity`: 0 is falsy, so the sales screen falls through
      to the stale `stockQuantity`. */
  lemma ZeroStockEditShadowed(products: seq<RawRecord>, id: string, form: EditForm, image: string)
    requires id != "" && FindRecord(products, id).Some?
    requires ParseInt(form.stock) == Num(0)
    requires Truthy(products[FindRecord(products, id).value].stockQuantity)
    ensures var k := FindRecord(products, id).value;
      LoadProduct(EditSave(products, Some(id), form, image)[k]).stock ==
        ToNumber(products[k].stockQuantity.value)
  {
  }
}

=== FILE: cart.dfy ===
/** The cart of the sales screen (pos.js `addToCart`, the `+`/`-` buttons,
    clear and the grand total). A cart line keeps a snapshot of the product
    taken when the line was created. */
module Cart {
  import opened Wrappers
  import opened Js
  import opened Seqs
  import opened PosCatalog

  datatype CartLine = CartLine(id: Prop, productName: Prop, productPrice: Number, quantity: int, stock: Number)

  type Cart = seq<CartLine>

  /** The outcome of a cart button: the new cart, or the stock message shown
      instead ("only has N in stock" / "is out of stock"), leaving the cart
      as it was. */
  datatype CartStep = Done(cart: Cart) | OnlyHas(name: Prop, stock: Number) | OutOfStock(name: Prop)

  predicate LineHasId(l: CartLine, id: Prop) {
    StrictEq(l.id, id)
  }

  /** The cart invariant: every line has quantity at least 1 and no two lines
      carry the same id. */
  predicate Valid(cart: Cart) {
    && (forall i :: 0 <= i < |cart| ==> cart[i].quantity >= 1)
    && (forall i, j :: 0 <= i < |cart| && 0 <= j < |cart| && i != j ==> !LineHasId(cart[i], cart[j].id))
  }

  /** `cart.find(c => c.id === id)` as a position. */
  function FindLine(cart: Cart, id: Prop): (r: Option<nat>)
    ensures r.Some? ==> r.value < |cart| && LineHasId(cart[r.value], id)
    ensures r.None? ==> forall i :: 0 <= i < |cart| ==> !LineHasId(cart[i], id)
  {
    FindIndex(cart, l => LineHasId(l, id))
  }

  /** The quantity the cart holds for `id`; 0 when it has no such line. */
  function QuantityOf(cart: Cart, id: Prop): int {
    match FindLine(cart, id)
    case Some(k) => cart[k].quantity
    case None => 0
  }

  /** The lines whose id is not `id`, in cart order. */
  function OtherLines(cart: Cart, id: Prop): Cart {
    Filter(cart, l => !LineHasId(l, id))
  }

  /** The line `addToCart` pushes for a product not yet in the cart. */
  function Snapshot(p: PosProduct): CartLine {
    CartLine(p.id, p.productName, p.productPrice, 1, p.stock)
  }

  /** `addToCart`: a product already in the cart gets one more unit unless
      that would exceed its stock; a new product gets a line of quantity 1
      unless its stock is at most 0. A NaN stock compares false both ways and
      never rejects. */
  function AddToCart(cart: Cart, product: PosProduct): (r: CartStep)
    ensures !r.Done? <==> product.stock.Num? && QuantityOf(cart, product.id) + 1 > product.stock.v
    ensures r.Done? && product.stock.Num? ==> QuantityOf(r.cart, product.id) <= product.stock.v
    ensures r.Done? && product.id != Some(JNum(NaN)) ==>
      QuantityOf(r.cart, product.id) == QuantityOf(cart, product.id) + 1
    ensures r.Done? && FindLine(cart, product.id).None? ==> r.cart == cart + [Snapshot(product)]
    ensures r.Done? && product.id != Some(JNum(NaN)) ==>
      OtherLines(r.cart, product.id) == OtherLines(cart, product.id)
    ensures r.Done? && Valid(cart) ==> Valid(r.cart)
    ensures !r.Done? && FindLine(cart, product.id).None? ==> r == OutOfStock(product.productName)
    ensures !r.Done? && FindLine(cart, product.id).Some? ==> r == OnlyHas(product.productName, product.stock)
    ensures r.Done? && FindLine(cart, product.id).Some? ==>
      var k := FindLine(cart, product.id).value;
      && |r.cart| == |cart| && r.cart[k] == cart[k].(quantity := cart[k].quantity + 1)
      && forall i :: 0 <= i < |cart| && i != k ==> r.cart[i] == cart[i]
  {
    match FindLine(cart, product.id)
    case Some(k) =>
      if Gt(Num(cart[k].quantity + 1), product.stock) then OnlyHas(product.productName, product.stock)
      else
        var r := cart[k := cart[k].(quantity := cart[k].quantity + 1)];
        ReplaceMatchingLine(cart, k, r[k], product.id);
        assert FindLine(r, product.id) == Some(k) by { FindLineUnchangedPrefix(cart, r, k, product.id); }
        Done(r)
    case None =>
      if Le(product.stock, Num(0)) then OutOfStock(product.productName)
      else
        var r := cart + [Snapshot(product)];
        AppendLine(cart, Snapshot(product), product.id);
        Done(r)
  }

  /** The `+` button: the line and the product are looked up by the
      button's `data-id` text; an unknown id does nothing, otherwise the
      bound is checked as in `addToCart`. */
  function Plus(cart: Cart, products: seq<PosProduct>, id: string): (r: CartStep)
    ensures FindLine(cart, Some(JStr(id))).None? ==> r == Done(cart)
    ensures FindProduct(products, Some(JStr(id))).None? ==> r == Done(cart)
    ensures r.Done? && Valid(cart) ==> Valid(r.cart)
  {
    var key := Some(JStr(id));
    match (FindLine(cart, key), FindProduct(products, key))
    case (Some(k), Some(j)) =>
      assert products[j].id == key;
      AddToCart(cart, products[j])
    case _ => Done(cart)
  }

  /** The `-` button: an unknown id does nothing; a line with quantity above
      1 loses one unit; a line with quantity 1 is removed. */
  function Minus(cart: Cart, id: string): (r: Cart)
    ensures FindLine(cart, Some(JStr(id))).None? ==> r == cart
    ensures OtherLines(r, Some(JStr(id))) == OtherLines(cart, Some(JStr(id)))
    ensures Valid(cart) ==> Valid(r)
    ensures var q := QuantityOf(cart, Some(JStr(id)));
      Valid(cart) ==> QuantityOf(r, Some(JStr(id))) == (if q > 0 then q - 1 else 0)
    ensures FindLine(cart, Some(JStr(id))).Some? && cart[FindLine(cart, Some(JStr(id))).value].quantity > 1 ==>
      var k := FindLine(cart, Some(JStr(id))).value;
      && |r| == |cart| && r[k] == cart[k].(quantity := cart[k].quantity - 1)
      && forall i :: 0 <= i < |cart| && i != k ==> r[i] == cart[i]
    ensures FindLine(cart, Some(JStr(id))).Some? && cart[FindLine(cart, Some(JStr(id))).value].quantity <= 1 ==>
      var k := FindLine(cart, Some(JStr(id))).value;
      |r| == |cart| - 1 && r[..k] == cart[..k] && r[k..] == cart[k + 1..]
  {
    var key := Some(JStr(id));
    match FindLine(cart, key)
    case None => cart
    case Some(k) =>
      if cart[k].quantity > 1 then
        var r := cart[k := cart[k].(quantity := cart[k].quantity - 1)];
        ReplaceMatchingLine(cart, k, r[k], key);
        FindLineUnchangedPrefix(cart, r, k, key);
        r
      else
        var r := cart[..k] + cart[k + 1..];
        RemoveLineOthers(cart, k, key);
        RemoveLineValid(cart, k, key);
        r
  }

  /** Clearing empties the cart unconditionally. */
  function ClearCart(): (r: Cart)
    ensures Valid(r) && |r| == 0 && Total(r) == Num(0)
  {
    []
  }

  /** `price * quantity` of one line. */
  function Subtotal(l: CartLine): Number {
    Mul(l.productPrice, Num(l.quantity))
  }

  /** The grand total, accumulated from the first line to the last. It is a
      number exactly when every line's price is. */
  function Total(cart: Cart): (r: Number)
    ensures r.Num? <==> forall i :: 0 <= i < |cart| ==> cart[i].productPrice.Num?
    decreases |cart|
  {
    if |cart| == 0 then Num(0)
    else
      var init := cart[..|cart| - 1];
      assert forall i :: 0 <= i < |init| ==> init[i] == cart[i];
      Add(Total(init), Subtotal(cart[|cart| - 1]))
  }

  /** The total of two carts side by side is the sum of their totals. */
  lemma {:induction false} TotalAppend(a: Cart, b: Cart)
    ensures Total(a + b) == Add(Total(a), Total(b))
    decreases |b|
  {
    if |b| > 0 {
      var b' := b[..|b| - 1];
      assert (a + b)[..|a + b| - 1] == a + b';
      TotalAppend(a, b');
    } else {
      assert a + b == a;
    }
  }

  /** `renderCart`'s accumulation loop computes the grand total. */
  method RenderTotal(cart: Cart) returns (total: Number)
    ensures total == Total(cart)
  {
    total := Num(0);
    var i := 0;
    while i < |cart|
      invariant 0 <= i <= |cart|
      invariant total == Total(cart[..i])
    {
      assert cart[..i + 1][..i] == cart[..i];
      total := Add(total, Subtotal(cart[i]));
      i := i + 1;
    }
    assert cart[..|cart|] == cart;
  }

  /** `-` undoes a successful add of the same id. */
  lemma MinusUndoesAdd(cart: Cart, product: PosProduct, id: string)
    requires Valid(cart) && product.id == Some(JStr(id))
    requires AddToCart(cart, product).Done?
    ensures Minus(AddToCart(cart, product).cart, id) == cart
  {
    if FindLine(cart, product.id).Some? {
      MinusUndoesIncrement(cart, product, id);
    } else {
      MinusUndoesNewLine(cart, product, id);
    }
  }

  lemma MinusUndoesIncrement(cart: Cart, product: PosProduct, id: string)
    requires Valid(cart) && product.id == Some(JStr(id))
    requires AddToCart(cart, product).Done? && FindLine(cart, product.id).Some?
    ensures Minus(AddToCart(cart, product).cart, id) == cart
  {
    var k := FindLine(cart, product.id).value;
    var line := cart[k];
    var c' := cart[k := line.(quantity := line.quantity + 1)];
    assert AddToCart(cart, product).cart == c';
    FindLineUnchangedPrefix(cart, c', k, product.id);
    assert c'[k].quantity > 1;
    assert Minus(c', id) == c'[k := c'[k].(quantity := c'[k].quantity - 1)];
    assert c'[k].(quantity := c'[k].quantity - 1) == line;
    assert c'[k := line] == cart;
  }

  lemma MinusUndoesNewLine(cart: Cart, product: PosProduct, id: string)
    requires Valid(cart) && product.id == Some(JStr(id))
    requires AddToCart(cart, product).Done? && FindLine(cart, product.id).None?
    ensures Minus(AddToCart(cart, product).cart, id) == cart
  {
    var c' := AddToCart(cart, product).cart;
    assert c' == cart + [Snapshot(product)];
    AppendLine(cart, Snapshot(product), product.id);
    assert c'[..|cart|] + c'[|cart| + 1..] == cart;
  }

  /** `+` on a line whose product is found is `addToCart` of that product. */
  lemma PlusIsAdd(cart: Cart, products: seq<PosProduct>, id: string, j: nat)
    requires j < |products| && products[j].id == Some(JStr(id))
    requires forall i :: 0 <= i < j ==> products[i].id != Some(JStr(id))
    requires FindLine(cart, Some(JStr(id))).Some?
    ensures Plus(cart, products, id) == AddToCart(cart, products[j])
  {
    var key := Some(JStr(id));
    assert FindProduct(products, key) == Some(j);
  }

  /** A product with 3 in stock at price 10: three adds succeed, the fourth
      is refused with the stock, and the cart holds 3 units totalling 30. */
  lemma FourthAddRefused()
    ensures var p := PosProduct(Some(JStr("p1")), Some(JStr("Pen")), JStr(""), Num(10), Num(3), JStr(""));
      var c1 := AddToCart([], p);
      && c1.Done?
      && AddToCart(c1.cart, p).Done?
      && AddToCart(AddToCart(c1.cart, p).cart, p).Done?
      && var c3 := AddToCart(AddToCart(c1.cart, p).cart, p).cart;
      && AddToCart(c3, p) == OnlyHas(Some(JStr("Pen")), Num(3))
      && c3 == [CartLine(Some(JStr("p1")), Some(JStr("Pen")), Num(10), 3, Num(3))]
      && Total(c3) == Num(30)
  {
    var p := PosProduct(Some(JStr("p1")), Some(JStr("Pen")), JStr(""), Num(10), Num(3), JStr(""));
    var line := Snapshot(p);
    var c1 := AddToCart([], p);
    assert c1 == Done([line]);
    assert FindLine([line], p.id) == Some(0);
    var c2 := AddToCart(c1.cart, p);
    assert c2 == Done([line.(quantity := 2)]);
    assert FindLine(c2.cart, p.id) == Some(0);
    var c3 := AddToCart(c2.cart, p);
    assert c3 == Done([line.(quantity := 3)]);
    assert FindLine(c3.cart, p.id) == Some(0);
    assert c3.cart[..0] == [];
  }

  // ---- helper facts about lines and positions ----

  lemma {:induction false} FilterAppend(a: Cart, b: Cart, id: Prop)
    ensures OtherLines(a + b, id) == OtherLines(a, id) + OtherLines(b, id)
    decreases |a|
  {
    if |a| > 0 {
      assert (a + b)[1..] == a[1..] + b;
      FilterAppend(a[1..], b, id);
    } else {
      assert a + b == b;
    }
  }

  /** Replacing a matching line by another matching line leaves the other
      lines alone and keeps the invariant when the quantity stays positive. */
  lemma ReplaceMatchingLine(cart: Cart, k: nat, x: CartLine, id: Prop)
    requires k < |cart| && LineHasId(cart[k], id) && LineHasId(x, id)
    ensures OtherLines(cart[k := x], id) == OtherLines(cart, id)
    ensures Valid(cart) && x.quantity >= 1 ==> Valid(cart[k := x])
  {
    var r := cart[k := x];
    assert cart == cart[..k] + [cart[k]] + cart[k + 1..];
    assert r == cart[..k] + [x] + cart[k + 1..];
    FilterAppend(cart[..k] + [cart[k]], cart[k + 1..], id);
    FilterAppend(cart[..k], [cart[k]], id);
    FilterAppend(cart[..k] + [x], cart[k + 1..], id);
    FilterAppend(cart[..k], [x], id);
    StrictEqMeaning(cart[k].id, id);
    StrictEqMeaning(x.id, id);
  }

  /** Removing a matching line leaves the other lines alone. */
  lemma RemoveLineOthers(cart: Cart, k: nat, id: Prop)
    requires k < |cart| && LineHasId(cart[k], id)
    ensures OtherLines(cart[..k] + cart[k + 1..], id) == OtherLines(cart, id)
  {
    assert cart == cart[..k] + [cart[k]] + cart[k + 1..];
    FilterAppend(cart[..k] + [cart[k]], cart[k + 1..], id);
    FilterAppend(cart[..k], [cart[k]], id);
    FilterAppend(cart[..k], cart[k + 1..], id);
  }

  /** Removing a line from a valid cart keeps it valid, and with unique ids
      no line for `id` remains. */
  lemma RemoveLineValid(cart: Cart, k: nat, id: Prop)
    requires k < |cart| && LineHasId(cart[k], id)
    ensures Valid(cart) ==> Valid(cart[..k] + cart[k + 1..])
    ensures Valid(cart) ==> FindLine(cart[..k] + cart[k + 1..], id).None?
  {
    if Valid(cart) {
      RemoveFromValid(cart, k, id);
    }
  }

  lemma RemoveFromValid(cart: Cart, k: nat, id: Prop)
    requires k < |cart| && LineHasId(cart[k], id) && Valid(cart)
    ensures Valid(cart[..k] + cart[k + 1..])
    ensures FindLine(cart[..k] + cart[k + 1..], id).None?
  {
    var r := cart[..k] + cart[k + 1..];
    StrictEqMeaning(cart[k].id, id);
    assert forall i :: 0 <= i < |r| ==> r[i] == cart[if i < k then i else i + 1];
    forall i | 0 <= i < |r|
      ensures !LineHasId(r[i], id)
    {
      var i' := if i < k then i else i + 1;
      assert !LineHasId(cart[i'], cart[k].id);
    }
  }

  /** Appending a line for `id` to a cart without one. */
  lemma AppendLine(cart: Cart, x: CartLine, id: Prop)
    requires FindLine(cart, id).None? && x.id == id && x.quantity >= 1
    ensures id != Some(JNum(NaN)) ==> OtherLines(cart + [x], id) == OtherLines(cart, id)
    ensures id != Some(JNum(NaN)) ==> FindLine(cart + [x], id) == Some(|cart|)
    ensures Valid(cart) ==> Valid(cart + [x])
  {
    FilterAppend(cart, [x], id);
    StrictEqMeaning(x.id, id);
    forall i | 0 <= i < |cart|
      ensures !LineHasId(cart[i], x.id)
    {
      assert !LineHasId(cart[i], id);
    }
    if id != Some(JNum(NaN)) {
      FindLineUnchangedPrefix(cart + [x], cart + [x], |cart|, id);
    }
  }

  /** If the first `k` lines do not match and line `k` does, the first match
      is at `k`. */
  lemma FindLineUnchangedPrefix(cart: Cart, r: Cart, k: nat, id: Prop)
    requires k < |cart| && |r| == |cart|
    requires forall i :: 0 <= i < k ==> r[i] == cart[i] && !LineHasId(cart[i], id)
    requires LineHasId(r[k], id)
    ensures FindLine(r, id) == Some(k)
  {
  }
}

=== FILE: catalog.dfy ===
/** The sales screen's view of the catalog (pos.js `loadProducts`): every
    stored record is mapped through an alias table into one shape, and a
    finished sale writes the catalog back in a second, canonical shape. */
module PosCatalog {
  import opened Wrappers
  import opened Js
  import opened Text
  import opened Coerce
  import opened Records
  import opened Seqs

  /** A product as the sales screen holds it after loading. */
  datatype PosProduct = PosProduct(
    id: Prop,
    productName: Prop,
    productDetail: JsVal,
    productPrice: Number,
    stock: Number,
    productImage: JsVal)

  /** The alias mapping of `loadProducts` for one stored record. The name is
      taken as stored; the price is `Number` of the first truthy one of
      `productPrice` and `price`, else 0; the detail and the image are the
      first truthy one of the sales key and the admin key (`desc`, `image`),
      else "". */
  function LoadProduct(p: RawRecord): (q: PosProduct)
    ensures q.productName == p.productName
    ensures Truthy(p.productPrice) ==> q.productPrice == ToNumber(p.productPrice.value)
    ensures !Truthy(p.productPrice) && Truthy(p.price) ==> q.productPrice == ToNumber(p.price.value)
    ensures !Truthy(p.productPrice) && !Truthy(p.price) ==> q.productPrice == Num(0)
    ensures Truthy(p.productDetail) ==> Some(q.productDetail) == p.productDetail
    ensures !Truthy(p.productDetail) && Truthy(p.desc) ==> Some(q.productDetail) == p.desc
    ensures !Truthy(p.productDetail) && !Truthy(p.desc) ==> q.productDetail == JStr("")
    ensures Truthy(p.productImage) ==> Some(q.productImage) == p.productImage
    ensures !Truthy(p.productImage) && Truthy(p.image) ==> Some(q.productImage) == p.image
    ensures !Truthy(p.productImage) && !Truthy(p.image) ==> q.productImage == JStr("")
    ensures Loadable(q)
  {
    PosProduct(
      id := if Truthy(p.id) then p.id else p.productName,
      productName := p.productName,
      productDetail := OrElse(p.productDetail, p.desc, JStr("")),
      productPrice := ToNumber(OrElse(p.productPrice, p.price, JNum(Num(0)))),
      stock := ToNumber(OrElse(p.stock, p.stockQuantity, JNum(Num(0)))),
      productImage := OrElse(p.productImage, p.image, JStr("")))
  }

  /** `loadProducts` over the whole array: one product per record, in order. */
  function LoadProducts(a: seq<RawRecord>): (r: seq<PosProduct>)
    ensures |r| == |a|
    ensures forall i :: 0 <= i < |a| ==> r[i] == LoadProduct(a[i])
  {
    seq(|a|, i requires 0 <= i < |a| => LoadProduct(a[i]))
  }

  /** `products.find(p => p.id === id)` as a position. */
  function FindProduct(products: seq<PosProduct>, id: Prop): (r: Option<nat>)
    ensures r.Some? ==> r.value < |products| && StrictEq(products[r.value].id, id)
    ensures r.Some? ==> forall i :: 0 <= i < r.value ==> !StrictEq(products[i].id, id)
    ensures r.None? ==> forall i :: 0 <= i < |products| ==> !StrictEq(products[i].id, id)
  {
    FindIndex(products, (p: PosProduct) => StrictEq(p.id, id))
  }

  /** The stock the sales screen sees for a record: the first truthy one of
      `stock` and `stockQuantity`, else 0. A stock of 0 is falsy, so it falls
      through to `stockQuantity`. */
  lemma LoadedStock(p: RawRecord)
    ensures Truthy(p.stock) ==> LoadProduct(p).stock == ToNumber(p.stock.value)
    ensures !Truthy(p.stock) && Truthy(p.stockQuantity) ==>
      LoadProduct(p).stock == ToNumber(p.stockQuantity.value)
    ensures !Truthy(p.stock) && !Truthy(p.stockQuantity) ==> LoadProduct(p).stock == Num(0)
  {
  }

  /** The id the sales screen uses: the stored id when truthy, else the
      product name, which may itself be missing. */
  lemma LoadedId(p: RawRecord)
    ensures Truthy(p.id) ==> LoadProduct(p).id == p.id
    ensures !Truthy(p.id) ==> LoadProduct(p).id == p.productName
  {
  }

  /** A record written by the admin screen has no `productName`, so the
      loaded product has none either (and no id when its stored id is falsy).
      `ProductFilter` shows what that does to the product grid. */
  lemma AdminRecordHasNoPosName(p: RawRecord)
    requires p.productName.None? && p.name.Some?
    ensures LoadProduct(p).productName.None?
    ensures !Truthy(p.id) ==> LoadProduct(p).id.None?
  {
  }

  /** The canonical record a finished sale writes for each product: the
      sales screen's keys, with the stock under `stockQuantity`. */
  function Canonical(q: PosProduct): (p: RawRecord)
    ensures NoAdminKeys(p)
    ensures p.stockQuantity == Some(JNum(q.stock))
  {
    EmptyRecord.(
      id := q.id,
      productName := q.productName,
      productDetail := Some(q.productDetail),
      productPrice := Some(JNum(q.productPrice)),
      stockQuantity := Some(JNum(q.stock)),
      productImage := Some(q.productImage))
  }

  /** A product in the shape `loadProducts` produces. */
  predicate Loadable(q: PosProduct) {
    && (Truthy(q.id) || q.id == q.productName)
    && (Truthy(Some(q.productDetail)) || q.productDetail == JStr(""))
    && (Truthy(Some(q.productImage)) || q.productImage == JStr(""))
  }

  /** Writing a loaded product back in canonical shape and loading it again
      gives the same product, provided its price and stock are numbers;
      NaN is written as `null` and comes back as 0. (A name that is NaN
      cannot come from parsed JSON.) */
  lemma CanonicalRoundTrip(q: PosProduct)
    requires Loadable(q) && q.productName != Some(JNum(NaN))
    ensures q.productPrice.Num? && q.stock.Num? ==> LoadProduct(JsonRecord(Canonical(q))) == q
    ensures q.stock == NaN ==> LoadProduct(JsonRecord(Canonical(q))).stock == Num(0)
  {
  }

  predicate HasStringProductName(p: PosProduct) {
    p.productName.Some? && p.productName.value.JStr?
  }

  /** `p.productName.toLowerCase().includes(q)`. */
  predicate ProductMatches(p: PosProduct, q: string) {
    HasStringProductName(p) && Includes(ToLower(p.productName.value.s), q)
  }

  /** The filter of `renderProducts`. The query is trimmed and lower-cased,
      and `productName.toLowerCase()` is taken on every product, even for an
      empty query: one product without a string name throws (`None`), and
      the grid shows nothing. Otherwise the matching products are kept in
      order, and a blank query keeps them all. */
  function ProductFilter(products: seq<PosProduct>, filter: string): (r: Option<seq<PosProduct>>)
    ensures r.None? <==> exists i :: 0 <= i < |products| && !HasStringProductName(products[i])
    ensures r.Some? ==> SubsequenceOf(r.value, products)
    ensures r.Some? ==>
      forall x :: multiset(r.value)[x] ==
        if ProductMatches(x, ToLower(Trim(filter))) then multiset(products)[x] else 0
    ensures r.Some? && AllSpace(filter) ==> r.value == products
  {
    TrimEmptyIffBlank(filter);
    var q := ToLower(Trim(filter));
    if exists i :: 0 <= i < |products| && !HasStringProductName(products[i]) then None
    else Some(MatchingProducts(products, q))
  }

  /** The products whose name contains `q`, every copy of each, in order;
      all of them when `q` is empty and every name is a string. */
  function MatchingProducts(products: seq<PosProduct>, q: string): (r: seq<PosProduct>)
    ensures SubsequenceOf(r, products)
    ensures forall x :: multiset(r)[x] == if ProductMatches(x, q) then multiset(products)[x] else 0
    ensures q == [] && (forall i :: 0 <= i < |products| ==> HasStringProductName(products[i])) ==>
      r == products
  {
    var keep := (p: PosProduct) => ProductMatches(p, q);
    FilterIsSubsequence(products, keep);
    FilterKeepsAll(products, keep);
    FilterCount(products, keep);
    assert q == [] ==> forall p :: HasStringProductName(p) ==> keep(p);
    Filter(products, keep)
  }

  /** One record written by the admin screen empties the sales screen's
      product grid, whatever the query. */
  lemma AdminRecordBlanksGrid(a: seq<RawRecord>, k: nat, filter: string)
    requires k < |a| && a[k].productName.None?
    ensures ProductFilter(LoadProducts(a), filter).None?
  {
    assert !HasStringProductName(LoadProducts(a)[k]);
  }
}

=== FILE: checkout.dfy ===
/** The finalize button of the sales screen: re-read the catalog, check every
    cart line against the fresh stock, and only if all lines pass, subtract
    the quantities and write the whole catalog back in canonical shape. */
module Checkout {
  import opened Wrappers
  import opened Js
  import opened Records
  import opened Storage
  import opened PosCatalog
  import opened Cart

  /** Why a sale was refused; each carries what the message shows. */
  datatype Rejection = EmptyCart | NotFound(name: Prop) | Short(name: Prop, stock: Number)

  /** A finished sale: the store after the write, and the cart after it. */
  datatype Sale = Sale(store: Blob, cart: Cart)

  /** A cart line passes when its product is in the fresh catalog and the
      quantity does not exceed that product's stock. */
  predicate LineFits(l: CartLine, products: seq<PosProduct>) {
    match FindProduct(products, l.id)
    case None => false
    case Some(j) => !Gt(Num(l.quantity), products[j].stock)
  }

  /** The rejection reported for a line that does not pass. */
  function LineRejection(l: CartLine, products: seq<PosProduct>): Rejection {
    match FindProduct(products, l.id)
    case None => NotFound(l.productName)
    case Some(j) => Short(products[j].productName, products[j].stock)
  }

  /** The validation loop: the rejection for the first line, in cart order,
      that does not pass; `None` when every line passes. */
  function Validate(cart: Cart, products: seq<PosProduct>): (r: Option<Rejection>)
    ensures r.None? <==> forall i :: 0 <= i < |cart| ==> LineFits(cart[i], products)
    ensures r.Some? ==>
      exists k :: (0 <= k < |cart| && !LineFits(cart[k], products) &&
        (forall i :: 0 <= i < k ==> LineFits(cart[i], products)) &&
        r.value == LineRejection(cart[k], products))
  {
    if |cart| == 0 then None
    else if !LineFits(cart[0], products) then Some(LineRejection(cart[0], products))
    else
      var r := Validate(cart[1..], products);
      assert forall i :: 1 <= i < |cart| ==> cart[i] == cart[1..][i - 1];
      if r.Some? then
        var k :| 0 <= k < |cart[1..]| && !LineFits(cart[1..][k], products) &&
          (forall i :: 0 <= i < k ==> LineFits(cart[1..][i], products)) &&
          r.value == LineRejection(cart[1..][k], products);
        assert !LineFits(cart[k + 1], products);
        r
      else r
  }

  /** The stock deduction: every product that has a cart line loses that
      line's quantity; everything else about every product is unchanged. */
  function Deduct(products: seq<PosProduct>, cart: Cart): (r: seq<PosProduct>)
    ensures |r| == |products|
    ensures forall i :: 0 <= i < |products| ==> r[i].(stock := products[i].stock) == products[i]
    ensures forall i :: 0 <= i < |products| && FindLine(cart, products[i].id).None? ==>
      r[i] == products[i]
    ensures forall i :: 0 <= i < |products| && FindLine(cart, products[i].id).Some? ==>
      r[i].stock == Sub(products[i].stock, Num(QuantityOf(cart, products[i].id)))
  {
    seq(|products|, i requires 0 <= i < |products| =>
      match FindLine(cart, products[i].id)
      case None => products[i]
      case Some(k) => products[i].(stock := Sub(products[i].stock, Num(cart[k].quantity))))
  }

  /** The catalog in the shape a sale writes it. */
  function CanonicalAll(products: seq<PosProduct>): (r: seq<RawRecord>)
    ensures |r| == |products|
    ensures forall i :: 0 <= i < |r| ==> NoAdminKeys(r[i])
  {
    seq(|products|, i requires 0 <= i < |products| => Canonical(products[i]))
  }

  /** The catalog the sales screen reads from the store. */
  function Fresh(store: Blob): seq<PosProduct> {
    LoadProducts(GetAllProducts(store))
  }

  /** Finalize: all or nothing. A refused sale carries no store and no cart,
      so both stay as they were; an accepted one replaces the whole catalog
      and empties the cart. */
  function Finalize(cart: Cart, store: Blob): (r: Result<Sale, Rejection>)
    ensures |cart| == 0 ==> r == Failure(EmptyCart)
    ensures r.Failure? <==>
      |cart| == 0 || exists i :: 0 <= i < |cart| && !LineFits(cart[i], Fresh(store))
    ensures r.Failure? && |cart| > 0 ==>
      exists k :: 0 <= k < |cart| && !LineFits(cart[k], Fresh(store)) &&
        r.error == LineRejection(cart[k], Fresh(store))
    ensures r.Success? ==> |r.value.cart| == 0
    ensures r.Success? ==> |GetAllProducts(r.value.store)| == |GetAllProducts(store)|
    ensures r.Success? ==> forall i :: 0 <= i < |GetAllProducts(r.value.store)| ==>
      && NoAdminKeys(GetAllProducts(r.value.store)[i])
      && GetAllProducts(r.value.store)[i] == JsonRecord(Canonical(Deduct(Fresh(store), cart)[i]))
  {
    if |cart| == 0 then Failure(EmptyCart)
    else
      var products := Fresh(store);
      match Validate(cart, products)
      case Some(e) => Failure(e)
      case None =>
        var written := CanonicalAll(Deduct(products, cart));
        SaveThenGet(written);
        Success(Sale(SaveAllProducts(written), []))
  }

  /** No two products of the catalog share an id under `===`. */
  predicate DistinctIds(products: seq<PosProduct>) {
    forall i, j :: 0 <= i < |products| && 0 <= j < |products| && i != j ==>
      !StrictEq(products[i].id, products[j].id)
  }

  /** With distinct ids, a sale never drives a stock below 0: every product a
      line deducts from is the product that line was checked against. */
  lemma SaleKeepsStockNonNegative(cart: Cart, store: Blob)
    requires DistinctIds(Fresh(store))
    requires forall i :: 0 <= i < |Fresh(store)| ==> Fresh(store)[i].stock.Num? && Fresh(store)[i].stock.v >= 0
    requires Finalize(cart, store).Success?
    ensures forall i :: 0 <= i < |Deduct(Fresh(store), cart)| ==>
      Deduct(Fresh(store), cart)[i].stock.Num? && Deduct(Fresh(store), cart)[i].stock.v >= 0
  {
    var products := Fresh(store);
    var r := Deduct(products, cart);
    forall i | 0 <= i < |r|
      ensures r[i].stock.Num? && r[i].stock.v >= 0
    {
      match FindLine(cart, products[i].id)
      case None =>
      case Some(k) =>
        assert LineFits(cart[k], products);
        var j := FindProduct(products, cart[k].id).value;
        StrictEqMeaning(cart[k].id, products[i].id);
        StrictEqMeaning(products[j].id, cart[k].id);
        assert StrictEq(products[i].id, products[j].id);
        assert j == i;
    }
  }

  /** Without distinct ids the check and the deduction can pick different
      products: two records share id "x", the first has 5 in stock and the
      second none, and selling 2 of "x" passes and leaves the second at -2. */
  lemma DuplicateIdsOversell()
    ensures var store := SaveAllProducts([
        EmptyRecord.(id := Some(JStr("x")), stock := Some(JNum(Num(5)))),
        EmptyRecord.(id := Some(JStr("x")), stockQuantity := Some(JNum(Num(0))))]);
      var cart := [CartLine(Some(JStr("x")), None, Num(100), 2, Num(5))];
      && Finalize(cart, store).Success?
      && GetAllProducts(Finalize(cart, store).value.store)[1].stockQuantity == Some(JNum(Num(-2)))
  {
    var store := SaveAllProducts([
        EmptyRecord.(id := Some(JStr("x")), stock := Some(JNum(Num(5)))),
        EmptyRecord.(id := Some(JStr("x")), stockQuantity := Some(JNum(Num(0))))]);
    var cart := [CartLine(Some(JStr("x")), None, Num(100), 2, Num(5))];
    var products := Fresh(store);
    assert products[0].stock == Num(5) && products[1].stock == Num(0);
    assert FindProduct(products, cart[0].id) == Some(0);
    assert LineFits(cart[0], products);
    assert FindLine(cart, products[1].id) == Some(0);
    assert Deduct(products, cart)[1].stock == Num(-2);
  }

  /** A stock that shrank after the line was added is caught at checkout: the
      sale is refused, naming a line's product or stock, and nothing is
      written. */
  lemma StaleCartRejected(cart: Cart, store: Blob, k: nat)
    requires k < |cart| && FindProduct(Fresh(store), cart[k].id).Some?
    requires var p := Fresh(store)[FindProduct(Fresh(store), cart[k].id).value];
      p.stock.Num? && cart[k].quantity > p.stock.v
    ensures Finalize(cart, store).Failure?
    ensures Finalize(cart, store).error.NotFound? || Finalize(cart, store).error.Short?
  {
    var products := Fresh(store);
    assert !LineFits(cart[k], products);
    var r := Finalize(cart, store);
    assert r.Failure?;
    var k' :| 0 <= k' < |cart| && !LineFits(cart[k'], products) && r.error == LineRejection(cart[k'], products);
  }
}

=== FILE: coerce.dfy ===
/** Conversions between numbers and strings as the screens use them:
    `Number(x)` on stored values and form input, `parseInt(x, 10)`,
    `String(n)` and `n.toString(36)`. Only integer numerals are modelled. */
module Coerce {
  import opened Js
  import opened Text

  /** The digit `d` of a radix up to 36: `0-9` then `a-z`. */
  function DigitChar(d: nat): (c: char)
    requires d < 36
  {
    if d < 10 then ('0' as int + d) as char else ('a' as int + d - 10) as char
  }

  /** The value of a digit character, or 36 for anything that is not one. */
  function DigitOf(c: char): (d: nat)
    ensures d <= 36
    ensures d < 36 ==> DigitChar(d) == c
  {
    if '0' <= c <= '9' then c as int - '0' as int
    else if 'a' <= c <= 'z' then c as int - 'a' as int + 10
    else 36
  }

  predicate IsDecimalDigit(c: char) {
    '0' <= c <= '9'
  }

  predicate AllDecimal(s: string) {
    forall i :: 0 <= i < |s| ==> IsDecimalDigit(s[i])
  }

  /** `n.toString(radix)` for a non-negative integer. */
  function ToRadix(n: nat, radix: nat): (r: string)
    requires 2 <= radix <= 36
    ensures |r| >= 1
    ensures forall i :: 0 <= i < |r| ==> DigitOf(r[i]) < radix
    ensures r[0] == '0' ==> n == 0
    decreases n
  {
    if n < radix then [DigitChar(n)]
    else
      DivMod(n, radix);
      ToRadix(n / radix, radix) + [DigitChar(n % radix)]
  }

  lemma DivMod(n: nat, radix: nat)
    requires 2 <= radix <= n
    ensures n == (n / radix) * radix + n % radix
    ensures 0 <= n % radix < radix
    ensures 1 <= n / radix < n
  {
  }

  /** The value of a numeral read most-significant digit first. */
  function FromRadix(s: string, radix: nat): nat
  {
    if |s| == 0 then 0 else FromRadix(s[..|s| - 1], radix) * radix + DigitOf(s[|s| - 1])
  }

  /** Reading back a rendered numeral gives the number rendered. */
  lemma {:induction false} RadixRoundTrip(n: nat, radix: nat)
    requires 2 <= radix <= 36
    ensures FromRadix(ToRadix(n, radix), radix) == n
    decreases n
  {
    if n >= radix {
      DivMod(n, radix);
      var s := ToRadix(n / radix, radix);
      RadixRoundTrip(n / radix, radix);
      assert (s + [DigitChar(n % radix)])[..|s|] == s;
    }
  }

  /** Decimal numerals contain decimal digits only. */
  lemma DecimalNumeral(n: nat)
    ensures AllDecimal(ToRadix(n, 10))
  {
    var r := ToRadix(n, 10);
    forall i | 0 <= i < |r|
      ensures IsDecimalDigit(r[i])
    {
      assert DigitChar(DigitOf(r[i])) == r[i];
    }
  }

  /** `String(n)` for an integer. */
  function IntToString(n: int): (r: string)
    ensures |r| >= 1
    ensures r[0] == '-' <==> n < 0
  {
    if n < 0 then "-" + ToRadix(-n, 10) else ToRadix(n, 10)
  }

  /** The numeral `Number(s)` accepts after trimming: an optional sign and at
      least one decimal digit. */
  predicate IsIntegerLiteral(t: string) {
    if |t| > 0 && (t[0] == '-' || t[0] == '+') then |t| > 1 && AllDecimal(t[1..])
    else |t| > 0 && AllDecimal(t)
  }

  /** `Number(s)`: blank text is 0, a signed decimal integer is its value,
      anything else is NaN. */
  function StringToNumber(s: string): (r: Number)
    ensures AllSpace(s) ==> r == Num(0)
    ensures !AllSpace(s) ==> (r.Num? <==> IsIntegerLiteral(Trim(s)))
  {
    TrimEmptyIffBlank(s);
    var t := Trim(s);
    if t == [] then Num(0)
    else if !IsIntegerLiteral(t) then NaN
    else if t[0] == '-' then Num(-(FromRadix(t[1..], 10) as int))
    else if t[0] == '+' then Num(FromRadix(t[1..], 10))
    else Num(FromRadix(t, 10))
  }

  /** `Number(v)` on a stored property value. */
  function ToNumber(v: JsVal): (r: Number)
    ensures v.JNum? ==> r == v.n
    ensures v.JNull? ==> r == Num(0)
  {
    match v
    case JNull => Num(0)
    case JNum(n) => n
    case JStr(s) => StringToNumber(s)
  }

  /** The number of leading decimal digits of `s`. */
  function DigitRun(s: string): (k: nat)
    ensures k <= |s| && AllDecimal(s[..k])
    ensures k < |s| ==> !IsDecimalDigit(s[k])
  {
    if |s| > 0 && IsDecimalDigit(s[0]) then
      var k := 1 + DigitRun(s[1..]);
      assert s[..k] == [s[0]] + s[1..][..k - 1];
      k
    else 0
  }

  /** `parseInt(s, 10)`: skips leading white space, takes an optional sign
      and the longest run of decimal digits after it; NaN when that run is
      empty. Trailing text is ignored. */
  function ParseInt(s: string): (r: Number)
    ensures r.Num? ==> exists k :: 0 <= k < |s| && IsDecimalDigit(s[k])
  {
    var t := TrimStart(s);
    var neg := |t| > 0 && t[0] == '-';
    var body := if |t| > 0 && (t[0] == '-' || t[0] == '+') then t[1..] else t;
    var k := DigitRun(body);
    if k == 0 then NaN
    else
      assert body[0] == s[|s| - |body|];
      if neg then Num(-(FromRadix(body[..k], 10) as int)) else Num(FromRadix(body[..k], 10))
  }

  /** `parseInt(String(n), 10)` is `n`: rendering an integer and parsing it
      back loses nothing. */
  lemma ParseIntOfString(n: int)
    ensures ParseInt(IntToString(n)) == Num(n)
  {
    var m: nat := if n < 0 then -n else n;
    DecimalNumeral(m);
    RadixRoundTrip(m, 10);
    if n < 0 {
      ParseIntSigned(ToRadix(m, 10));
    } else {
      ParseIntDigits(ToRadix(m, 10));
    }
  }

  lemma ParseIntDigits(d: string)
    requires |d| >= 1 && AllDecimal(d)
    ensures ParseInt(d) == Num(FromRadix(d, 10))
  {
    assert !IsSpace(d[0]);
    assert TrimStart(d) == d;
    DigitRunAll(d);
    assert d[..|d|] == d;
  }

  lemma ParseIntSigned(d: string)
    requires |d| >= 1 && AllDecimal(d)
    ensures ParseInt("-" + d) == Num(-(FromRadix(d, 10) as int))
  {
    var s := "-" + d;
    assert !IsSpace(s[0]);
    assert TrimStart(s) == s;
    assert s[1..] == d;
    DigitRunAll(d);
    assert d[..|d|] == d;
  }

  lemma {:induction false} DigitRunAll(s: string)
    requires AllDecimal(s)
    ensures DigitRun(s) == |s|
  {
    if |s| > 0 {
      DigitRunAll(s[1..]);
    }
  }

  /** `Number(String(n))` is `n`: the add form's price and stock read an
      integer's rendering back as that integer. */
  lemma StringToNumberOfString(n: int)
    ensures StringToNumber(IntToString(n)) == Num(n)
  {
    var m: nat := if n < 0 then -n else n;
    DecimalNumeral(m);
    RadixRoundTrip(m, 10);
    if n < 0 {
      NumberSigned(ToRadix(m, 10));
    } else {
      NumberDigits(ToRadix(m, 10));
    }
  }

  lemma NumberDigits(d: string)
    requires |d| >= 1 && AllDecimal(d)
    ensures StringToNumber(d) == Num(FromRadix(d, 10))
  {
    assert IsDecimalDigit(d[0]) && IsDecimalDigit(d[|d| - 1]);
    TrimUnchanged(d);
    assert IsIntegerLiteral(d);
  }

  lemma NumberSigned(d: string)
    requires |d| >= 1 && AllDecimal(d)
    ensures StringToNumber("-" + d) == Num(-(FromRadix(d, 10) as int))
  {
    var s := "-" + d;
    assert s[1..] == d;
    assert s[|s| - 1] == d[|d| - 1];
    assert IsDecimalDigit(d[|d| - 1]);
    TrimUnchanged(s);
    assert IsIntegerLiteral(s);
  }

  /** Blank input is 0 for `Number` but NaN for `parseInt`: the add form and
      the edit form read an empty stock field differently. */
  lemma BlankInputDiffers()
    ensures StringToNumber("") == Num(0)
    ensures ParseInt("") == NaN
  {
  }
}

=== FILE: html.dfy ===
/** `escapeHtml`, present in admin.js and, with an extra `toString()` call,
    in pos.js: five `replaceAll` passes, `&` first. */
module Html {

  /** `s.replaceAll(c, rep)` for a one-character pattern. */
  function ReplaceAll(s: string, c: char, rep: string): (r: string)
    ensures c !in s ==> r == s
    ensures c !in rep ==> c !in r
    ensures forall x :: x in r ==> x in s || x in rep
  {
    if |s| == 0 then []
    else (if s[0] == c then rep else [s[0]]) + ReplaceAll(s[1..], c, rep)
  }

  /** `escapeHtml` as written: the five passes in order. No `<`, `>`, `"`
      or `'` survives, and text with nothing to escape is returned as it is. */
  function EscapeHtml(s: string): (r: string)
    ensures '<' !in r && '>' !in r && '"' !in r && '\'' !in r
    ensures (forall i :: 0 <= i < |s| ==> !IsSpecial(s[i])) ==> r == s
  {
    assert '<' !in "&lt;" && '<' !in "&gt;" && '<' !in "&quot;" && '<' !in "&#39;";
    assert '>' !in "&gt;" && '>' !in "&quot;" && '>' !in "&#39;";
    assert '"' !in "&quot;" && '"' !in "&#39;" && '\'' !in "&#39;";
    var a := ReplaceAll(s, '&', "&amp;");
    var b := ReplaceAll(a, '<', "&lt;");
    var c := ReplaceAll(b, '>', "&gt;");
    var d := ReplaceAll(c, '"', "&quot;");
    ReplaceAll(d, '\'', "&#39;")
  }

  predicate IsSpecial(c: char) {
    c == '&' || c == '<' || c == '>' || c == '"' || c == '\''
  }

  /** The entity for one character, or the character itself. */
  function EscapeChar(c: char): (r: string)
    ensures !IsSpecial(c) ==> r == [c]
    ensures IsSpecial(c) ==> |r| >= 4 && r[0] == '&' && r[|r| - 1] == ';'
  {
    if c == '&' then "&amp;"
    else if c == '<' then "&lt;"
    else if c == '>' then "&gt;"
    else if c == '"' then "&quot;"
    else if c == '\'' then "&#39;"
    else [c]
  }

  /** The reference: every character escaped once, in a single pass. */
  function EscapeEach(s: string): (r: string)
    ensures forall i :: 0 <= i < |r| ==> r[i] != '<' && r[i] != '>' && r[i] != '"' && r[i] != '\''
  {
    if |s| == 0 then [] else EscapeChar(s[0]) + EscapeEach(s[1..])
  }

  lemma {:induction false} ReplaceAllAppend(a: string, b: string, c: char, rep: string)
    ensures ReplaceAll(a + b, c, rep) == ReplaceAll(a, c, rep) + ReplaceAll(b, c, rep)
    decreases |a|
  {
    if |a| > 0 {
      assert (a + b)[1..] == a[1..] + b;
      ReplaceAllAppend(a[1..], b, c, rep);
    } else {
      assert a + b == b;
    }
  }

  lemma EscapeHtmlAppend(a: string, b: string)
    ensures EscapeHtml(a + b) == EscapeHtml(a) + EscapeHtml(b)
  {
    var a1, b1 := ReplaceAll(a, '&', "&amp;"), ReplaceAll(b, '&', "&amp;");
    ReplaceAllAppend(a, b, '&', "&amp;");
    var a2, b2 := ReplaceAll(a1, '<', "&lt;"), ReplaceAll(b1, '<', "&lt;");
    ReplaceAllAppend(a1, b1, '<', "&lt;");
    var a3, b3 := ReplaceAll(a2, '>', "&gt;"), ReplaceAll(b2, '>', "&gt;");
    ReplaceAllAppend(a2, b2, '>', "&gt;");
    var a4, b4 := ReplaceAll(a3, '"', "&quot;"), ReplaceAll(b3, '"', "&quot;");
    ReplaceAllAppend(a3, b3, '"', "&quot;");
    ReplaceAllAppend(a4, b4, '\'', "&#39;");
  }

  lemma ReplaceAllOne(c: char, x: char, rep: string)
    ensures ReplaceAll([c], x, rep) == if c == x then rep else [c]
  {
    assert [c][1..] == [];
  }

  lemma EscapeHtmlChar(c: char)
    ensures EscapeHtml([c]) == EscapeChar(c)
  {
    ReplaceAllOne(c, '&', "&amp;");
    if c == '&' {
      assert '<' !in "&amp;" && '>' !in "&amp;" && '"' !in "&amp;" && '\'' !in "&amp;";
    } else {
      ReplaceAllOne(c, '<', "&lt;");
      if c == '<' {
        assert '>' !in "&lt;" && '"' !in "&lt;" && '\'' !in "&lt;";
      } else {
        ReplaceAllOne(c, '>', "&gt;");
        if c == '>' {
          assert '"' !in "&gt;" && '\'' !in "&gt;";
        } else {
          ReplaceAllOne(c, '"', "&quot;");
          if c == '"' {
            assert '\'' !in "&quot;";
          } else {
            ReplaceAllOne(c, '\'', "&#39;");
          }
        }
      }
    }
  }

  /** Because `&` is replaced first, the five passes escape every character
      exactly once: no entity a pass produces is escaped again. */
  lemma {:induction false} EscapeIsOnePass(s: string)
    ensures EscapeHtml(s) == EscapeEach(s)
    decreases |s|
  {
    if |s| == 0 {
    } else {
      assert s == [s[0]] + s[1..];
      EscapeHtmlAppend([s[0]], s[1..]);
      EscapeHtmlChar(s[0]);
      EscapeIsOnePass(s[1..]);
    }
  }

  /** Decoding the five entities back into characters. */
  function Unescape(s: string): string
    decreases |s|
  {
    if |s| == 0 then []
    else if "&amp;" <= s then "&" + Unescape(s[5..])
    else if "&lt;" <= s then "<" + Unescape(s[4..])
    else if "&gt;" <= s then ">" + Unescape(s[4..])
    else if "&quot;" <= s then "\"" + Unescape(s[6..])
    else if "&#39;" <= s then "'" + Unescape(s[5..])
    else [s[0]] + Unescape(s[1..])
  }

  /** Escaping loses nothing: decoding the escaped text gives the input. */
  lemma {:induction false} UnescapeEscape(s: string)
    ensures Unescape(EscapeHtml(s)) == s
  {
    EscapeIsOnePass(s);
    UnescapeEscapeEach(s);
  }

  lemma {:induction false} UnescapeEscapeEach(s: string)
    ensures Unescape(EscapeEach(s)) == s
    decreases |s|
  {
    if |s| > 0 {
      UnescapeEscapeEach(s[1..]);
      UnescapeOne(s[0], EscapeEach(s[1..]));
      assert s == [s[0]] + s[1..];
    }
  }

  /** Decoding an escaped character followed by anything decodes the
      character and then the rest. */
  lemma UnescapeOne(c: char, rest: string)
    ensures Unescape(EscapeChar(c) + rest) == [c] + Unescape(rest)
  {
    var t := EscapeChar(c) + rest;
    if c == '&' {
      assert "&amp;" <= t && t[5..] == rest;
    } else if c == '<' {
      assert t[1] == 'l' && !("&amp;" <= t);
      assert "&lt;" <= t && t[4..] == rest;
    } else if c == '>' {
      assert t[1] == 'g' && !("&amp;" <= t) && !("&lt;" <= t);
      assert "&gt;" <= t && t[4..] == rest;
    } else if c == '"' {
      assert t[1] == 'q' && !("&amp;" <= t) && !("&lt;" <= t) && !("&gt;" <= t);
      assert "&quot;" <= t && t[6..] == rest;
    } else if c == '\'' {
      assert t[1] == '#' && !("&amp;" <= t) && !("&lt;" <= t) && !("&gt;" <= t) && !("&quot;" <= t);
      assert "&#39;" <= t && t[5..] == rest;
    } else {
      assert t[0] == c && c != '&';
      assert !("&amp;" <= t) && !("&lt;" <= t) && !("&gt;" <= t) && !("&quot;" <= t) && !("&#39;" <= t);
      assert t[1..] == rest;
    }
  }
}

=== FILE: ids.dfy ===
/** Identifier generation. Randomness and the clock are inputs: the digits
    `Math.random().toString(36)` prints after "0." and the value of
    `Date.now()`. Nothing makes the generated ids unique, and nothing here
    claims it. */
module Ids {
  import opened Coerce

  type Digit36 = d: nat | d < 36

  /** The characters of a sequence of base-36 digits. */
  function Base36Chars(ds: seq<Digit36>): (r: string)
    ensures |r| == |ds|
    ensures forall i :: 0 <= i < |r| ==> DigitOf(r[i]) == ds[i]
  {
    seq(|ds|, i requires 0 <= i < |ds| => DigitChar(ds[i]))
  }

  /** `Math.random().toString(36).slice(2, end)`: the first `end - 2` digits
      after the point (none when the random number is 0). */
  function RandomSlice(fraction: seq<Digit36>, end: nat): (r: string)
    requires end >= 2
    ensures |r| == if |fraction| < end - 2 then |fraction| else end - 2
  {
    var n := if |fraction| < end - 2 then |fraction| else end - 2;
    Base36Chars(fraction[..n])
  }

  /** `generateId(prefix)` of the admin screen: the prefix followed by at
      most seven base-36 digits. */
  function GenerateId(prefix: string, fraction: seq<Digit36>): (r: string)
    ensures |prefix| <= |r| <= |prefix| + 7
    ensures r[..|prefix|] == prefix
    ensures forall i :: |prefix| <= i < |r| ==> DigitOf(r[i]) < 36
  {
    prefix + RandomSlice(fraction, 9)
  }

  /** The clock and random input consumed when storage assigns one id. */
  datatype IdStamp = IdStamp(now: nat, fraction: seq<Digit36>)

  /** The id storage assigns: "p", the time in base 36, then up to four
      random base-36 digits. */
  function StampedId(stamp: IdStamp): (r: string)
    ensures |r| >= 2 && r[0] == 'p'
    ensures forall i :: 1 <= i < |r| ==> DigitOf(r[i]) < 36
  {
    "p" + ToRadix(stamp.now, 36) + RandomSlice(stamp.fraction, 6)
  }
}

=== FILE: js.dfy ===
/** The fragment of JavaScript values the screens store in product records:
    strings, numbers (with NaN) and `null`; a missing property (`undefined`)
    is `None`. Truthiness, `||`, `===` and the number operators used by the
    cart are written out here so that their corner cases stay visible. */
module Js {
  import opened Wrappers

  /** A JavaScript number restricted to integers (amounts are in cents). */
  datatype Number = Num(v: int) | NaN

  datatype JsVal = JStr(s: string) | JNum(n: Number) | JNull

  /** A property read: `None` is `undefined`. */
  type Prop = Option<JsVal>

  /** JavaScript truthiness of a property value. */
  predicate Truthy(v: Prop) {
    match v
    case None => false
    case Some(JNull) => false
    case Some(JStr(s)) => s != ""
    case Some(JNum(n)) => n.Num? && n.v != 0
  }

  /** `a || b || dflt`: the first truthy alias, else the default. */
  function OrElse(a: Prop, b: Prop, dflt: JsVal): (r: JsVal)
    ensures Truthy(a) ==> Some(r) == a
    ensures !Truthy(a) && Truthy(b) ==> Some(r) == b
    ensures !Truthy(a) && !Truthy(b) ==> r == dflt
  {
    if Truthy(a) then a.value else if Truthy(b) then b.value else dflt
  }

  /** `a === b`: like structural equality, except that NaN equals nothing. */
  predicate StrictEq(a: Prop, b: Prop) {
    match (a, b)
    case (None, None) => true
    case (Some(JNum(NaN)), _) => false
    case (_, Some(JNum(NaN))) => false
    case (Some(x), Some(y)) => x == y
    case _ => false
  }

  /** `===` is reflexive on everything but NaN, and implies equality. */
  lemma StrictEqMeaning(a: Prop, b: Prop)
    ensures StrictEq(a, b) <==> a == b && a != Some(JNum(NaN))
  {
  }

  /** `a > b` on numbers: false as soon as either side is NaN. */
  predicate Gt(a: Number, b: Number) {
    a.Num? && b.Num? && a.v > b.v
  }

  /** `a <= b` on numbers: false as soon as either side is NaN. */
  predicate Le(a: Number, b: Number) {
    a.Num? && b.Num? && a.v <= b.v
  }

  function Add(a: Number, b: Number): (r: Number)
    ensures r.Num? <==> a.Num? && b.Num?
  {
    if a.Num? && b.Num? then Num(a.v + b.v) else NaN
  }

  function Sub(a: Number, b: Number): (r: Number)
    ensures r.Num? <==> a.Num? && b.Num?
  {
    if a.Num? && b.Num? then Num(a.v - b.v) else NaN
  }

  function Mul(a: Number, b: Number): (r: Number)
    ensures r.Num? <==> a.Num? && b.Num?
  {
    if a.Num? && b.Num? then Num(a.v * b.v) else NaN
  }
}

=== FILE: records.dfy ===
/** The stored product record, with every key either screen reads or writes.
    The admin screen writes `name/desc/price/stock/image`; the sales screen
    reads `productName/productDetail/productPrice/stock|stockQuantity/
    productImage` and writes back `stockQuantity`. Keeping all eleven keys
    optional makes the mismatch between the two shapes part of the model. */
module Records {
  import opened Wrappers
  import opened Js

  datatype RawRecord = RawRecord(
    id: Prop,
    productName: Prop,
    productDetail: Prop,
    productPrice: Prop,
    stock: Prop,
    stockQuantity: Prop,
    productImage: Prop,
    name: Prop,
    desc: Prop,
    price: Prop,
    image: Prop)

  /** A record with no keys at all (`{}`). */
  const EmptyRecord := RawRecord(None, None, None, None, None, None, None, None, None, None, None)

  /** A property after `JSON.stringify` and `JSON.parse`: NaN becomes `null`;
      strings, integers, `null` and missing keys survive. */
  function JsonValue(v: Prop): (r: Prop)
    ensures v != Some(JNum(NaN)) ==> r == v
    ensures r.Some? <==> v.Some?
    ensures r != Some(JNum(NaN))
  {
    if v == Some(JNum(NaN)) then Some(JNull) else v
  }

  predicate NaNFree(p: RawRecord) {
    && p.id != Some(JNum(NaN)) && p.productName != Some(JNum(NaN))
    && p.productDetail != Some(JNum(NaN)) && p.productPrice != Some(JNum(NaN))
    && p.stock != Some(JNum(NaN)) && p.stockQuantity != Some(JNum(NaN))
    && p.productImage != Some(JNum(NaN)) && p.name != Some(JNum(NaN))
    && p.desc != Some(JNum(NaN)) && p.price != Some(JNum(NaN))
    && p.image != Some(JNum(NaN))
  }

  /** One record through a JSON round trip. */
  function JsonRecord(p: RawRecord): (q: RawRecord)
    ensures NaNFree(q)
    ensures NaNFree(p) ==> q == p
  {
    RawRecord(JsonValue(p.id), JsonValue(p.productName), JsonValue(p.productDetail),
              JsonValue(p.productPrice), JsonValue(p.stock), JsonValue(p.stockQuantity),
              JsonValue(p.productImage), JsonValue(p.name), JsonValue(p.desc),
              JsonValue(p.price), JsonValue(p.image))
  }

  /** An array of records through a JSON round trip. */
  function JsonRecords(a: seq<RawRecord>): (r: seq<RawRecord>)
    ensures |r| == |a|
    ensures forall i :: 0 <= i < |a| ==> r[i] == JsonRecord(a[i])
  {
    seq(|a|, i requires 0 <= i < |a| => JsonRecord(a[i]))
  }

  /** The keys only the admin screen uses are all absent. */
  predicate NoAdminKeys(p: RawRecord) {
    p.name.None? && p.desc.None? && p.price.None? && p.stock.None? && p.image.None?
  }
}

=== FILE: seqs.dfy ===
/** Sequence helpers standing for `Array.prototype.find`, `findIndex` and
    `filter`, stated once and used by every screen of the model. */
module Seqs {
  import opened Wrappers

  /** `findIndex`: the position of the first element satisfying `p`. */
  function FindIndex<T>(s: seq<T>, p: T -> bool): (r: Option<nat>)
    ensures r.Some? ==> r.value < |s| && p(s[r.value])
    ensures r.Some? ==> forall j :: 0 <= j < r.value ==> !p(s[j])
    ensures r.None? <==> forall j :: 0 <= j < |s| ==> !p(s[j])
  {
    if |s| == 0 then None
    else if p(s[0]) then Some(0)
    else
      match FindIndex(s[1..], p)
      case None => None
      case Some(k) => Some(k + 1)
  }

  /** `filter`: the elements satisfying `p`, in their original order. */
  function Filter<T>(s: seq<T>, p: T -> bool): (r: seq<T>)
    ensures |r| <= |s|
    ensures forall i :: 0 <= i < |r| ==> p(r[i]) && r[i] in s
    ensures forall i :: 0 <= i < |s| && p(s[i]) ==> s[i] in r
  {
    if |s| == 0 then []
    else if p(s[0]) then [s[0]] + Filter(s[1..], p)
    else Filter(s[1..], p)
  }

  /** A filter keeps every copy of what it keeps and no copy of the rest. */
  lemma {:induction false} FilterCount<T>(s: seq<T>, p: T -> bool)
    ensures forall x :: multiset(Filter(s, p))[x] == if p(x) then multiset(s)[x] else 0
  {
    if |s| > 0 {
      FilterCount(s[1..], p);
      assert s == [s[0]] + s[1..];
    }
  }

  /** `r` can be obtained from `s` by deleting elements, keeping the order. */
  predicate SubsequenceOf<T(==)>(r: seq<T>, s: seq<T>)
    decreases |s|
  {
    if |r| == 0 then true
    else if |s| == 0 then false
    else (r[0] == s[0] && SubsequenceOf(r[1..], s[1..])) || SubsequenceOf(r, s[1..])
  }

  /** A filter keeps the order of what it keeps. */
  lemma {:induction false} FilterIsSubsequence<T>(s: seq<T>, p: T -> bool)
    ensures SubsequenceOf(Filter(s, p), s)
  {
    if |s| > 0 {
      FilterIsSubsequence(s[1..], p);
    }
  }

  /** A filter that rejects nothing returns its input. */
  lemma {:induction false} FilterKeepsAll<T>(s: seq<T>, p: T -> bool)
    ensures (forall i :: 0 <= i < |s| ==> p(s[i])) ==> Filter(s, p) == s
  {
    if |s| > 0 {
      FilterKeepsAll(s[1..], p);
      assert forall i :: 1 <= i < |s| ==> s[1..][i - 1] == s[i];
    }
  }
}

=== FILE: storage.dfy ===
/** storage.js: the product catalog kept as one serialised array under one
    key of the browser's key-value store. The store is a single cell; every
    write replaces the whole array. */
module Storage {
  import opened Wrappers
  import opened Js
  import opened Coerce
  import opened Records
  import opened Ids
  import opened Seqs

  /** A parsed JSON document: an array of product objects or anything else. */
  datatype Json = JsonArray(items: seq<RawRecord>) | JsonOther

  /** The cell under the catalog key: missing, holding text that does not
      parse, or holding the text of a JSON document. */
  datatype Blob = Absent | Unparsable | Text(doc: Json)

  /** `getAllProducts`: the parsed array, or the empty array when the entry
      is missing, does not parse, or is not an array. Parsing never yields
      NaN, so the records read are NaN-free. */
  function GetAllProducts(b: Blob): (r: seq<RawRecord>)
    ensures b.Text? && b.doc.JsonArray? ==> r == JsonRecords(b.doc.items)
    ensures !(b.Text? && b.doc.JsonArray?) ==> r == []
    ensures forall i :: 0 <= i < |r| ==> NaNFree(r[i])
  {
    match b
    case Text(JsonArray(items)) => JsonRecords(items)
    case _ => []
  }

  /** `saveAllProducts`: the cell afterwards holds the serialised array, and
      nothing of what it held before. */
  function SaveAllProducts(a: seq<RawRecord>): (b: Blob)
    ensures b.Text? && b.doc.JsonArray?
  {
    Text(JsonArray(JsonRecords(a)))
  }

  /** Reading after a save returns what was saved, up to the JSON round trip
      of each record; exactly what was saved when it held no NaN. */
  lemma SaveThenGet(a: seq<RawRecord>)
    ensures GetAllProducts(SaveAllProducts(a)) == JsonRecords(a)
    ensures (forall i :: 0 <= i < |a| ==> NaNFree(a[i])) ==> GetAllProducts(SaveAllProducts(a)) == a
  {
    var r := GetAllProducts(SaveAllProducts(a));
    assert forall i :: 0 <= i < |a| ==> r[i] == JsonRecord(JsonRecord(a[i]));
  }

  predicate HasId(p: RawRecord, id: string) {
    StrictEq(p.id, Some(JStr(id)))
  }

  predicate HasProductName(p: RawRecord, id: string) {
    StrictEq(p.productName, Some(JStr(id)))
  }

  /** `arr.find(p => p.id === id)` as a position. */
  function FindRecord(arr: seq<RawRecord>, id: string): (r: Option<nat>)
    ensures r.Some? ==> r.value < |arr| && HasId(arr[r.value], id)
    ensures r.Some? ==> forall j :: 0 <= j < r.value ==> !HasId(arr[j], id)
    ensures r.None? <==> forall j :: 0 <= j < |arr| ==> !HasId(arr[j], id)
  {
    FindIndex(arr, (p: RawRecord) => HasId(p, id))
  }

  /** `getProductById`: null for an empty id; otherwise the first record whose
      `id` matches, else the first whose `productName` matches, else null. */
  function GetProductById(b: Blob, id: string): (r: Option<RawRecord>)
    ensures id == "" ==> r.None?
    ensures r.None? <==>
      id == "" || forall i :: 0 <= i < |GetAllProducts(b)| ==>
        !HasId(GetAllProducts(b)[i], id) && !HasProductName(GetAllProducts(b)[i], id)
    ensures r.Some? && HasId(r.value, id) ==>
      exists k :: 0 <= k < |GetAllProducts(b)| && GetAllProducts(b)[k] == r.value &&
        forall j :: 0 <= j < k ==> !HasId(GetAllProducts(b)[j], id)
    ensures r.Some? && !HasId(r.value, id) ==>
      HasProductName(r.value, id) &&
      (forall i :: 0 <= i < |GetAllProducts(b)| ==> !HasId(GetAllProducts(b)[i], id)) &&
      exists k :: 0 <= k < |GetAllProducts(b)| && GetAllProducts(b)[k] == r.value &&
        forall j :: 0 <= j < k ==> !HasProductName(GetAllProducts(b)[j], id)
  {
    var arr := GetAllProducts(b);
    if id == "" then None
    else
      match FindRecord(arr, id)
      case Some(k) => Some(arr[k])
      case None =>
        match FindIndex(arr, (p: RawRecord) => HasProductName(p, id))
        case Some(k) => Some(arr[k])
        case None => None
  }

  /** What `ensureIds` repairs in one record: a falsy id, or a missing stock. */
  predicate NeedsRepair(p: RawRecord) {
    !Truthy(p.id) || p.stock.None?
  }

  /** The fields `ensureIds` never touches. */
  predicate SameOtherFields(p: RawRecord, q: RawRecord) {
    && p.productName == q.productName && p.productDetail == q.productDetail
    && p.productPrice == q.productPrice && p.stockQuantity == q.stockQuantity
    && p.productImage == q.productImage && p.name == q.name && p.desc == q.desc
    && p.price == q.price && p.image == q.image
  }

  /** The loop body of `ensureIds` for one record. */
  function RepairRecord(p: RawRecord, stamp: IdStamp): (q: RawRecord)
    ensures !NeedsRepair(q)
    ensures Truthy(p.id) ==> q.id == p.id
    ensures !Truthy(p.id) ==> q.id == Some(JStr(StampedId(stamp)))
    ensures p.stock.Some? ==> q.stock == p.stock
    ensures p.stock.None? && p.stockQuantity.Some? ==> q.stock == Some(JNum(ToNumber(p.stockQuantity.value)))
    ensures p.stock.None? && p.stockQuantity.None? ==> q.stock == Some(JNum(Num(0)))
    ensures SameOtherFields(p, q)
    ensures !NeedsRepair(p) ==> q == p
  {
    var p1 := if !Truthy(p.id) then p.(id := Some(JStr(StampedId(stamp)))) else p;
    if p1.stock.None? && p1.stockQuantity.Some? then
      p1.(stock := Some(JNum(ToNumber(p1.stockQuantity.value))))
    else if p1.stock.None? then
      p1.(stock := Some(JNum(Num(0))))
    else p1
  }

  /** `ensureIds`: repairs every record, and writes the array back only when
      some record needed a repair. `stamps(i)` is the clock and random input
      read when the record at position `i` gets an id. */
  function EnsureIds(b: Blob, stamps: nat -> IdStamp): (r: Blob)
    ensures |GetAllProducts(r)| == |GetAllProducts(b)|
    ensures forall i :: 0 <= i < |GetAllProducts(r)| ==>
      GetAllProducts(r)[i] == JsonRecord(RepairRecord(GetAllProducts(b)[i], stamps(i)))
    ensures forall i :: 0 <= i < |GetAllProducts(r)| ==> !NeedsRepair(GetAllProducts(r)[i])
    ensures r == b <==> forall i :: 0 <= i < |GetAllProducts(b)| ==> !NeedsRepair(GetAllProducts(b)[i])
  {
    var arr := GetAllProducts(b);
    if exists i :: 0 <= i < |arr| && NeedsRepair(arr[i]) then
      var fixed := seq(|arr|, i requires 0 <= i < |arr| => RepairRecord(arr[i], stamps(i)));
      SaveAllProducts(fixed)
    else b
  }

  /** `ensureIds` converges in one run: a second run finds nothing to repair
      and does not write, whatever clock and random input it reads. */
  lemma EnsureIdsIdempotent(b: Blob, stamps: nat -> IdStamp, later: nat -> IdStamp)
    ensures EnsureIds(EnsureIds(b, stamps), later) == EnsureIds(b, stamps)
  {
    var r := EnsureIds(b, stamps);
    assert forall i :: 0 <= i < |GetAllProducts(r)| ==> !NeedsRepair(GetAllProducts(r)[i]);
  }

  /** `initializeDatabase`: only a missing entry is seeded. `seed` is the
      parsed `products.json`, or `None` when fetching or parsing it failed.
      A seeded catalog is then repaired by `ensureIds`. */
  function InitializeDatabase(b: Blob, seed: Option<Json>, stamps: nat -> IdStamp): (r: Blob)
    ensures !b.Absent? ==> r == b
    ensures b.Absent? && seed.None? ==> r.Absent?
    ensures b.Absent? && seed.Some? ==> r.Text?
    ensures b.Absent? && seed.Some? && seed.value.JsonArray? ==>
      |GetAllProducts(r)| == |seed.value.items| &&
      forall i :: 0 <= i < |GetAllProducts(r)| ==> !NeedsRepair(GetAllProducts(r)[i])
    ensures b.Absent? && seed.Some? && seed.value.JsonArray? ==>
      var stored := GetAllProducts(r);
      var given := JsonRecords(seed.value.items);
      forall i :: 0 <= i < |stored| && i < |given| ==>
        && SameOtherFields(stored[i], given[i])
        && (Truthy(given[i].id) ==> stored[i].id == given[i].id)
        && (!Truthy(given[i].id) ==> stored[i].id == Some(JStr(StampedId(stamps(i)))))
        && (given[i].stock.Some? ==> stored[i].stock == given[i].stock)
        && stored[i] == JsonRecord(RepairRecord(given[i], stamps(i)))
    ensures b.Absent? && seed == Some(JsonOther) ==> r == Text(JsonOther)
  {
    if !b.Absent? then b
    else
      match seed
      case None => b
      case Some(doc) =>
        var stored := match doc
          case JsonArray(items) => Text(JsonArray(JsonRecords(items)))
          case JsonOther => Text(JsonOther);
        EnsureIds(stored, stamps)
  }
}

=== FILE: text.dfy ===
/** The string operations the screens apply to user input and product
    names: `trim`, `toLowerCase` and `includes`. */
module Text {

  /** JavaScript white space and line terminators, as `trim` strips them. */
  predicate IsSpace(c: char) {
    c in {'\t', '\n', '\U{000B}', '\U{000C}', '\r', ' ', '\U{00A0}', '\U{1680}',
          '\U{2000}', '\U{2001}', '\U{2002}', '\U{2003}', '\U{2004}', '\U{2005}',
          '\U{2006}', '\U{2007}', '\U{2008}', '\U{2009}', '\U{200A}', '\U{2028}',
          '\U{2029}', '\U{202F}', '\U{205F}', '\U{3000}', '\U{FEFF}'}
  }

  predicate AllSpace(s: string) {
    forall i :: 0 <= i < |s| ==> IsSpace(s[i])
  }

  /** `trimStart`: drops the leading white space and nothing else. */
  function TrimStart(s: string): (r: string)
    ensures |r| <= |s| && r == s[|s| - |r|..]
    ensures AllSpace(s[..|s| - |r|])
    ensures r == [] || !IsSpace(r[0])
  {
    if |s| > 0 && IsSpace(s[0]) then
      var r := TrimStart(s[1..]);
      assert s[..|s| - |r|] == [s[0]] + s[1..][..|s[1..]| - |r|];
      r
    else s
  }

  /** `trimEnd`: drops the trailing white space and nothing else. */
  function TrimEnd(s: string): (r: string)
    ensures |r| <= |s| && r == s[..|r|]
    ensures AllSpace(s[|r|..])
    ensures r == [] || !IsSpace(r[|r| - 1])
  {
    if |s| > 0 && IsSpace(s[|s| - 1]) then
      var r := TrimEnd(s[..|s| - 1]);
      assert s[|r|..] == s[..|s| - 1][|r|..] + [s[|s| - 1]];
      r
    else s
  }

  /** `trim`: a contiguous slice of the input with no white space at either end. */
  function Trim(s: string): (r: string)
    ensures |r| <= |s|
    ensures r == [] || (!IsSpace(r[0]) && !IsSpace(r[|r| - 1]))
  {
    TrimEnd(TrimStart(s))
  }

  /** Text that starts and ends with a non-space character is left as it is. */
  lemma TrimUnchanged(s: string)
    requires |s| > 0 && !IsSpace(s[0]) && !IsSpace(s[|s| - 1])
    ensures Trim(s) == s
  {
    assert TrimStart(s) == s;
    assert TrimEnd(s) == s;
  }

  /** A trimmed string is empty exactly when the input was all white space. */
  lemma TrimEmptyIffBlank(s: string)
    ensures Trim(s) == [] <==> AllSpace(s)
  {
    var a := TrimStart(s);
    if AllSpace(s) {
      AllSpaceSuffix(s, |s| - |a|);
      assert a == [];
    } else {
      var k :| 0 <= k < |s| && !IsSpace(s[k]);
      assert s[k] == a[k - (|s| - |a|)];
      assert !AllSpace(a);
      assert a[0..] == a;
    }
  }

  lemma AllSpaceSuffix(s: string, k: nat)
    requires AllSpace(s) && k <= |s|
    ensures AllSpace(s[k..])
  {
  }

  /** ASCII `toLowerCase` of one character. */
  function LowerChar(c: char): (r: char)
    ensures 'A' <= c <= 'Z' ==> 'a' <= r <= 'z' && r as int - c as int == 32
    ensures !('A' <= c <= 'Z') ==> r == c
  {
    if 'A' <= c <= 'Z' then (c as int + 32) as char else c
  }

  /** `toLowerCase`, character by character. */
  function ToLower(s: string): (r: string)
    ensures |r| == |s|
    ensures forall i :: 0 <= i < |s| ==> r[i] == LowerChar(s[i])
    ensures forall i :: 0 <= i < |r| ==> !('A' <= r[i] <= 'Z')
  {
    seq(|s|, i requires 0 <= i < |s| => LowerChar(s[i]))
  }

  /** `s.includes(q)`, scanning the start positions from the left. */
  predicate Includes(s: string, q: string)
    decreases |s|
  {
    q <= s || (|s| > 0 && Includes(s[1..], q))
  }

  /** `q` occurs in `s` starting at position `i`. */
  predicate OccursAt(s: string, q: string, i: int) {
    0 <= i <= |s| - |q| && s[i..i + |q|] == q
  }

  /** `includes` holds exactly when `q` occurs at some position of `s`. */
  lemma {:induction false} IncludesMeaning(s: string, q: string)
    ensures Includes(s, q) <==> exists i :: OccursAt(s, q, i)
  {
    if q <= s {
      assert s[0..0 + |q|] == q;
      assert OccursAt(s, q, 0);
    } else if |s| == 0 {
    } else {
      IncludesMeaning(s[1..], q);
      if Includes(s[1..], q) {
        var i :| OccursAt(s[1..], q, i);
        assert s[i + 1..i + 1 + |q|] == s[1..][i..i + |q|];
        assert OccursAt(s, q, i + 1);
      } else {
        forall i | OccursAt(s, q, i)
          ensures false
        {
          if i > 0 {
            assert s[1..][i - 1..i - 1 + |q|] == s[i..i + |q|];
            assert OccursAt(s[1..], q, i - 1);
          }
        }
      }
    }
  }
}

=== FILE: wrappers.dfy ===
/** Option and Result: the shapes used for JavaScript's `undefined`/`null`
    lookups and for operations that either succeed or are rejected. */
module Wrappers {

  /** A value that may be missing (`undefined` or `null` in the source). */
  datatype Option<+T> = None | Some(value: T)

  /** The outcome of an operation that is either applied or rejected. */
  datatype Result<+R, +E> = Success(value: R) | Failure(error: E)
}
